=== FILE: README.md ===
# biblioteca-fag: the loan core in Dafny

This project models the domain core of the biblioteca-fag library backend, a Spring/JPA service. The core covers:

- **Loans** (`Emprestimo`): create, return (`registrarDevolucao`), correct and delete, as `EmprestimoService` performs them.
- **Fines** (`Multa`): recorded, corrected and deleted by hand through `MultaService`, and totalled per member.
- **Books** (`Livro`): saved, updated and deleted through `LivroService`, including author resolution.
- **Status column**: the JPA converter `StatusLivroConverter` that stores a book's `StatusLivro` as a string.
- **Repository queries**: the derived and JPQL queries of the four repositories (loans, books, members, fines), as filters, counts and sorts over a scan of the tables.
- **Request constraints**: the Bean Validation constraints of `EmprestimoDTO` and `MultaDTO`.

The database is a functional `Store`:

- One map per table, from identifier to record.
- One identity counter per generated key.

Every service operation is a pure function from a store (and a request) to a `Result`. On success the result holds the new store and the saved record. On failure it holds an error: `NotFound(entity, id)`, `InvalidState(conflict)`, or `NullIdentifier(entity)` when a lookup is given a null identifier. The checks run in the same order as the source, so which error comes back is part of every contract. Associations are held as identifiers, and the JPA back-reference sets (`Livro.emprestimos`, `Emprestimo.multas`) are lookups over the store.

The book's stored status and its open loans are two separate facts here.

- `EmprestimoService.save` refuses a book by its stored status.
- `findLivrosDisponiveis` decides availability from open loans.
- The service never writes the status: its comments leave that to database triggers.

The module `Availability` does four things:

- It states the agreement between status and loans as an explicit hypothesis (`StatusReflectsLoans`, `SingleOpenLoan`).
- It proves that, under the hypothesis, creating a loan never gives a book a second open loan.
- It models the trigger as a separately named, assumed step (`SyncBookStatus`) that runs after a loan row is written. It proves that create, return and delete each keep the hypothesis when followed by that step. A correction by `update` followed by that step keeps `StatusReflectsLoans`, and keeps `SingleOpenLoan` only when it sets a return date.
- It exhibits four operations that break the hypothesis when no trigger follows them:
  - `LivroService.update` and `LivroService.save`, which write any status;
  - `EmprestimoService.update` setting a return date, which leaves a book EMPRESTADO with no open loan;
  - `EmprestimoService.delete` of an open loan, which does the same.
- Whether the database's triggers fire on a loan update or delete cannot be seen from the code, so those two break the hypothesis only if the triggers ignore them.
- An update that nulls a return date can give a book two open loans. This breaks the single open loan per book whether or not the trigger runs.

Modules, leaves first:

- `Common`: Option, Result, errors.
- `StatusConverter`
- `Entities`
- `Seqs`: filter, count, sort.
- `Database`: the store and scans.
- `Text`: case-insensitive containment.
- `LoanRepository`, `BookRepository`, `FineRepository`, `MemberRepository`
- `Dto`
- `LoanService`, `FineService`, `BookService`
- `Availability`

Source paths below are relative to the repository root.

## Model

| member | source | states |
|---|---|---|
| StatusConverter.ValueOf | src/main/java/io/acordi/msbiblioteca/config/StatusLivroConverter.java:26 | exact-name lookup: a constant is found iff some constant has exactly that name, and it is that constant |
| StatusConverter.FirstIgnoringCase | src/main/java/io/acordi/msbiblioteca/config/StatusLivroConverter.java:29-35 | the loop over `values()` returns a constant matching the string ignoring case whenever one exists, and DISPONIVEL when none does |
| StatusConverter.ToColumn | src/main/java/io/acordi/msbiblioteca/config/StatusLivroConverter.java:11-16 | a null status is written as "DISPONIVEL", any other as its constant's name |
| StatusConverter.FromColumn | src/main/java/io/acordi/msbiblioteca/config/StatusLivroConverter.java:19-36 | null and "" read as DISPONIVEL; an exact name reads as its constant; a case-insensitive match reads as that constant; anything else reads as DISPONIVEL, never failing |
| StatusConverter.NamesDoNotCollide | src/main/java/io/acordi/msbiblioteca/config/StatusLivroConverter.java:29-33 | the names are upper-case ASCII and no string matches two of them ignoring case, so the first match of the loop is the only match |
| StatusConverter.RoundTrip | src/main/java/io/acordi/msbiblioteca/config/StatusLivroConverter.java:11-36 | reading back a written status gives the status again; a written null comes back as DISPONIVEL |
| StatusConverter.LowerCaseIsAccepted | src/main/java/io/acordi/msbiblioteca/config/StatusLivroConverter.java:28-33 | "emprestado" reads as EMPRESTADO and "Disponivel" as DISPONIVEL |
| StatusConverter.UnknownFallsBack | src/main/java/io/acordi/msbiblioteca/config/StatusLivroConverter.java:34-35 | an unknown spelling ("RESERVADO", "EMPRESTADOS") reads as DISPONIVEL |
| Entities.StatusOf | src/main/java/io/acordi/msbiblioteca/domain/entities/Livro.java:62-64 | `getStatus` reports DISPONIVEL for a null field, and reports EMPRESTADO exactly when the field holds EMPRESTADO |
| Entities.StoredStatusReadsBack | src/main/java/io/acordi/msbiblioteca/domain/entities/Livro.java:23-25 | writing a book's status field through the converter and reading it back yields what `getStatus` reports |
| Entities.BlankBookDefaults | src/main/java/io/acordi/msbiblioteca/domain/entities/Livro.java:17-36 | a new book is DISPONIVEL with no authors, and its null title does not yet satisfy the NOT NULL, length-200 column |
| Text.MatchesEmptyAndItself | src/main/java/io/acordi/msbiblioteca/infra/repository/LivroRepository.java:15 | a `ContainingIgnoreCase` search with the empty string matches every value, and every value matches itself |
| LoanRepository.ByMember | src/main/java/io/acordi/msbiblioteca/infra/repository/EmprestimoRepository.java:15 | a loan is listed iff it is in the table and references the member |
| LoanRepository.ByBook | src/main/java/io/acordi/msbiblioteca/infra/repository/EmprestimoRepository.java:17 | a loan is listed iff it is in the table and references the book |
| LoanRepository.Active | src/main/java/io/acordi/msbiblioteca/infra/repository/EmprestimoRepository.java:19-20 | a loan is listed iff its return date is null |
| LoanRepository.Overdue | src/main/java/io/acordi/msbiblioteca/infra/repository/EmprestimoRepository.java:22-23 | a loan is listed iff it is open and its expected date is strictly before today |
| LoanRepository.ReturnedBetween | src/main/java/io/acordi/msbiblioteca/infra/repository/EmprestimoRepository.java:25-26 | a loan is listed iff it has a return date within both bounds inclusive; open loans never are; reversed bounds give nothing |
| LoanRepository.ActiveByMember | src/main/java/io/acordi/msbiblioteca/infra/repository/EmprestimoRepository.java:28-29 | a loan is listed iff it references the member and is open |
| LoanRepository.HistoryByBook | src/main/java/io/acordi/msbiblioteca/infra/repository/EmprestimoRepository.java:34-35 | the book's loans, each exactly as often as in `findByLivroId`, ordered by loan date, most recent first |
| LoanRepository.OverdueIsFilteredActive | src/main/java/io/acordi/msbiblioteca/infra/repository/EmprestimoRepository.java:19-23 | the overdue loans are exactly the active loans filtered by the expected date, so there are never more of them |
| LoanRepository.ActiveByMemberIsIntersection | src/main/java/io/acordi/msbiblioteca/infra/repository/EmprestimoRepository.java:15-29 | a member's active loans are the member's loans restricted to open ones, and equally the open loans restricted to the member |
| LoanRepository.CountActiveByMember | src/main/java/io/acordi/msbiblioteca/infra/repository/EmprestimoRepository.java:31-32 | the COUNT query, which the create limit reads, returns the number of loans the list query `findEmprestimosAtivosByMembro` returns (the member's loans with a null return date), and never more than the table's rows |
| LoanRepository.CountMatchesStore | src/main/java/io/acordi/msbiblioteca/infra/repository/EmprestimoRepository.java:31-32 | counted over any scan of the loan table, the active count is the number of the member's open loans in the store |
| LoanRepository.ReturnedIsNotActive | src/main/java/io/acordi/msbiblioteca/infra/repository/EmprestimoRepository.java:19-26 | no loan is both in a returned-between result and in the active list |
| BookRepository.ByTitle | src/main/java/io/acordi/msbiblioteca/infra/repository/LivroRepository.java:15 | a book is listed iff its title is non-null and contains the query ignoring case |
| BookRepository.EmptyTitleListsTitled | src/main/java/io/acordi/msbiblioteca/infra/repository/LivroRepository.java:15 | searching with the empty string lists exactly the books whose title is non-null, in table order |
| BookRepository.ColumnMatchesStatus | src/main/java/io/acordi/msbiblioteca/infra/repository/LivroRepository.java:17 | the status column equals the converted parameter iff `getStatus` equals the parameter |
| BookRepository.ByStatus | src/main/java/io/acordi/msbiblioteca/infra/repository/LivroRepository.java:17 | a book is listed iff `getStatus` equals the status, so a null field is found as DISPONIVEL |
| BookRepository.ByYear | src/main/java/io/acordi/msbiblioteca/infra/repository/LivroRepository.java:19 | a book is listed iff its year is present and equal to the given one |
| BookRepository.ByAuthor | src/main/java/io/acordi/msbiblioteca/infra/repository/LivroRepository.java:21-22 | a book is listed iff the author is among its authors |
| BookRepository.MostBorrowed | src/main/java/io/acordi/msbiblioteca/infra/repository/LivroRepository.java:24-25 | the books with at least one loan, each as often as in the table, by number of loans, largest first |
| BookRepository.Available | src/main/java/io/acordi/msbiblioteca/infra/repository/LivroRepository.java:27-28 | a book is listed iff every loan referencing it has a return date; the status field plays no part |
| BookRepository.ByYearBetween | src/main/java/io/acordi/msbiblioteca/infra/repository/LivroRepository.java:30-31 | a book is listed iff its year is present and within both bounds inclusive; reversed bounds give nothing |
| BookRepository.AvailableMatchesStore | src/main/java/io/acordi/msbiblioteca/infra/repository/LivroRepository.java:27-28 | over any scan of the loan table, a book is listed as available iff the store holds no open loan for it |
| BookRepository.SingleYearRange | src/main/java/io/acordi/msbiblioteca/infra/repository/LivroRepository.java:30-31 | a range from a year to the same year finds the same books as `findByAnoPublicacao` of that year |
| BookRepository.ByAuthorMatchesStore | src/main/java/io/acordi/msbiblioteca/infra/repository/LivroRepository.java:21-22 | over a scan of the book table, the listed identifiers are exactly the stored books linked to the author |
| FineRepository.ByMember | src/main/java/io/acordi/msbiblioteca/infra/repository/MultaRepository.java:16 | a fine is listed iff it references the member |
| FineRepository.ByLoan | src/main/java/io/acordi/msbiblioteca/infra/repository/MultaRepository.java:18 | a fine is listed iff it references the loan |
| FineRepository.SumByMember | src/main/java/io/acordi/msbiblioteca/infra/repository/MultaRepository.java:20-21 | SUM is NULL iff the member has no fine, otherwise the total of the member's fines |
| FineRepository.PositiveFinesSumPositive | src/main/java/io/acordi/msbiblioteca/domain/services/MultaService.java:56-58 | when every fine holds at least one cent, a non-null member total is at least one cent per fine of the member |
| FineRepository.GeneratedBetween | src/main/java/io/acordi/msbiblioteca/infra/repository/MultaRepository.java:23-24 | the fines generated within both bounds inclusive, each as often as in the table, latest first; reversed bounds give nothing |
| FineRepository.AmountAbove | src/main/java/io/acordi/msbiblioteca/infra/repository/MultaRepository.java:26-27 | the fines strictly above the minimum, each as often as in the table, largest first |
| FineRepository.AllByAmountDesc | src/main/java/io/acordi/msbiblioteca/infra/repository/MultaRepository.java:29-30 | a permutation of all fines, largest amount first |
| FineRepository.ByLoanMatchesStore | src/main/java/io/acordi/msbiblioteca/infra/repository/MultaRepository.java:18 | over a scan of the fine table, the listed identifiers are exactly the loan's fines, so the list is empty exactly when the loan-delete guard lets the loan go |
| MemberRepository.ByName | src/main/java/io/acordi/msbiblioteca/infra/repository/MembroRepository.java:15 | a member is listed iff the name contains the query ignoring case |
| MemberRepository.ByEmail | src/main/java/io/acordi/msbiblioteca/infra/repository/MembroRepository.java:17 | empty iff no member has exactly that email; otherwise a member of the table with that email |
| MemberRepository.ByEmailFindsOwner | src/main/java/io/acordi/msbiblioteca/infra/repository/MembroRepository.java:17 | with unique emails, looking up a member's email returns that member |
| MemberRepository.MostLoans | src/main/java/io/acordi/msbiblioteca/infra/repository/MembroRepository.java:19-20 | the members with at least one loan, each as often as in the table, by loan count, largest first |
| MemberRepository.MostFines | src/main/java/io/acordi/msbiblioteca/infra/repository/MembroRepository.java:22-23 | the members with at least one fine, each as often as in the table, by fine total, largest first |
| MemberRepository.Completed | src/main/java/io/acordi/msbiblioteca/infra/repository/MembroRepository.java:25-27 | a member is listed iff they have at least one loan and no open one |
| MemberRepository.WithActiveLoans | src/main/java/io/acordi/msbiblioteca/infra/repository/MembroRepository.java:29-30 | a member is listed iff they hold at least the given number of open loans |
| MemberRepository.WithActiveLoansMonotone | src/main/java/io/acordi/msbiblioteca/infra/repository/MembroRepository.java:29-30 | raising the threshold only drops members: the result is the lower threshold's result filtered again |
| MemberRepository.CompletedHoldsNoActiveLoan | src/main/java/io/acordi/msbiblioteca/infra/repository/MembroRepository.java:25-30 | no member is both in the completed list and in the list of members with at least one open loan |
| MemberRepository.EmptyNameListsAll | src/main/java/io/acordi/msbiblioteca/infra/repository/MembroRepository.java:15 | searching names with the empty string lists every member, in table order |
| Dto.LoanValidIffNoViolations | src/main/java/io/acordi/msbiblioteca/entrypoint/dto/EmprestimoDTO.java:11-24 | a loan request passes iff no field is reported: member, book and both dates present, expected date after today; the return date is never checked |
| Dto.FineValidIffNoViolations | src/main/java/io/acordi/msbiblioteca/entrypoint/dto/MultaDTO.java:12-22 | a fine request passes iff no field is reported: loan, member and an amount of at least one cent; a valid amount is positive; the timestamp is never checked |
| LoanService.Create | src/main/java/io/acordi/msbiblioteca/domain/services/EmprestimoService.java:91-120 | member not found, book not found, status EMPRESTADO and limit of 3 reached each fail exactly when the earlier checks passed and that one fails; the create succeeds exactly when all four checks pass, and then the store gains exactly the fresh loan with the request's fields, copied by `convertToEntity` (`NewLoan`, EmprestimoService.java:184-196), and the next identifier |
| LoanService.CreateRespectsLimit | src/main/java/io/acordi/msbiblioteca/domain/services/EmprestimoService.java:106-110 | after a create the member's open-loan count rose by one (an open loan) or stayed (a loan created returned), is at most 3, and no other member's count moved |
| LoanService.CreatedLoanHasNoFines | src/main/java/io/acordi/msbiblioteca/domain/services/EmprestimoService.java:112-118 | a loan just created has no fines, so it can be deleted straight away |
| LoanService.Return | src/main/java/io/acordi/msbiblioteca/domain/services/EmprestimoService.java:122-138 | not found iff the loan is missing; already returned iff it has a return date; it succeeds exactly when the loan exists and is open, and then the return date becomes the given date or today and nothing else changes |
| LoanService.SecondReturnFails | src/main/java/io/acordi/msbiblioteca/domain/services/EmprestimoService.java:127-129 | after a successful return, returning the same loan again fails, whatever date is given |
| LoanService.Update | src/main/java/io/acordi/msbiblioteca/domain/services/EmprestimoService.java:140-152 | not found iff missing, success iff present; the three dates are overwritten, the return date included even when null, and member and book are kept |
| LoanService.Delete | src/main/java/io/acordi/msbiblioteca/domain/services/EmprestimoService.java:154-165 | not found iff missing; refused iff some fine references the loan; success iff neither, removing exactly that loan |
| LoanService.CreateThenDeleteRestores | src/main/java/io/acordi/msbiblioteca/domain/services/EmprestimoService.java:154-165 | a loan just created passes the delete guard, and deleting it gives back the loan table as it was before the create |
| LoanService.UpdateUndoesReturn | src/main/java/io/acordi/msbiblioteca/domain/services/EmprestimoService.java:140-152 | after a return, an update with the loan's own member, book and dates and no return date (a request the validation accepts) succeeds and restores the open loan: a return is not final |
| LoanService.UpdateIdempotent | src/main/java/io/acordi/msbiblioteca/domain/services/EmprestimoService.java:140-152 | repeating an update with the same request changes nothing further |
| FineService.Create | src/main/java/io/acordi/msbiblioteca/domain/services/MultaService.java:78-99 | loan not found, then member not found, each fail exactly when reached; success iff both exist, and then the store gains exactly a fresh fine with the request's loan, member and amount, generated at the given time or now, which joins the loan's fines |
| FineService.FineMemberIsNotTiedToLoan | src/main/java/io/acordi/msbiblioteca/domain/services/MultaService.java:84-90 | a fine can be recorded against a member other than the loan's member |
| FineService.Update | src/main/java/io/acordi/msbiblioteca/domain/services/MultaService.java:101-111 | not found iff missing, success iff present; only the amount changes, and loan, member and timestamp are kept |
| FineService.Delete | src/main/java/io/acordi/msbiblioteca/domain/services/MultaService.java:113-119 | not found iff missing, success iff present, removing exactly that fine |
| FineService.CreateThenDeleteRestores | src/main/java/io/acordi/msbiblioteca/domain/services/MultaService.java:113-119 | a fine just recorded can be deleted, which gives back the fine table as it was before |
| FineService.UpdateIdempotent | src/main/java/io/acordi/msbiblioteca/domain/services/MultaService.java:101-111 | repeating an amount correction with the same request changes nothing further |
| FineService.DeletingFinesUnblocksLoan | src/main/java/io/acordi/msbiblioteca/domain/services/EmprestimoService.java:159-162 | deleting the only fine of a loan leaves the loan with no fines, which lifts the delete guard |
| BookService.ResolveAuthors | src/main/java/io/acordi/msbiblioteca/domain/services/LivroService.java:160-168 | succeeds iff every entry has an identifier naming a stored author, yielding exactly the listed identifiers; otherwise it fails at the first entry that does not: a null identifier is refused by `findById` (HTTP 500), an unknown one is NotFound |
| BookService.Save | src/main/java/io/acordi/msbiblioteca/domain/services/LivroService.java:148-171 | fails iff some author entry is null or unknown, with that entry's failure; otherwise the store gains exactly a fresh book with the request's title, year and status (even null) and the listed authors, with no loans, and the next identifier |
| BookService.Update | src/main/java/io/acordi/msbiblioteca/domain/services/LivroService.java:98-120 | book not found first; title, year and status overwritten; authors replaced only for a non-empty list; success iff the book exists and, when the list replaces the authors, every entry names a stored author; a failing entry reports a null or an unknown identifier |
| BookService.Delete | src/main/java/io/acordi/msbiblioteca/domain/services/LivroService.java:122-128 | not found iff missing, success iff present, removing exactly that book |
| BookService.SaveThenDeleteRestores | src/main/java/io/acordi/msbiblioteca/domain/services/LivroService.java:122-128 | a book just saved can be deleted, which gives back the book table as it was before |
| BookService.UpdateIdempotent | src/main/java/io/acordi/msbiblioteca/domain/services/LivroService.java:98-120 | repeating an update with the same request changes nothing further |
| Availability.CreateKeepsSingleOpenLoan | src/main/java/io/acordi/msbiblioteca/domain/services/EmprestimoService.java:101-104 | under the hypothesis, a successful create is for a book with no open loan, so no book ends up with two open loans |
| Availability.SyncBookStatus | src/main/java/io/acordi/msbiblioteca/domain/services/EmprestimoService.java:133 | the assumed trigger sets the book's status to EMPRESTADO iff it has an open loan; the rest of the store, every other table and counter included, is unchanged |
| Availability.CreateThenSyncKeepsHypothesis | src/main/java/io/acordi/msbiblioteca/domain/services/EmprestimoService.java:116-118 | create followed by the trigger keeps the hypothesis and a single open loan per book, and an open new loan leaves the book EMPRESTADO |
| Availability.ReturnThenSyncKeepsHypothesis | src/main/java/io/acordi/msbiblioteca/domain/services/EmprestimoService.java:131-136 | return followed by the trigger keeps the hypothesis and leaves the book DISPONIVEL |
| Availability.AvailableAgreesWithStatus | src/main/java/io/acordi/msbiblioteca/infra/repository/LivroRepository.java:27-28 | under the hypothesis, `findLivrosDisponiveis` and `findByStatus(DISPONIVEL)` list the same books |
| Availability.BookUpdateCanBreakHypothesis | src/main/java/io/acordi/msbiblioteca/domain/services/LivroService.java:105 | an update setting EMPRESTADO on a book with no loans succeeds and breaks the hypothesis |
| Availability.LoanUpdateCanReopen | src/main/java/io/acordi/msbiblioteca/domain/services/EmprestimoService.java:148 | an update nulling the return date of a returned loan, while the book is on loan again, succeeds and leaves the book with two open loans, before and after the trigger step |
| Availability.DeletingOpenLoanBreaksHypothesis | src/main/java/io/acordi/msbiblioteca/domain/services/EmprestimoService.java:154-165 | under the hypothesis, deleting an open loan without fines succeeds and, with no trigger step after it, leaves its book EMPRESTADO with no open loan |
| Availability.ClosingByUpdateBreaksHypothesis | src/main/java/io/acordi/msbiblioteca/domain/services/EmprestimoService.java:140-152 | under the hypothesis, an update giving an open loan a return date succeeds and, with no trigger step after it, leaves its book EMPRESTADO with no open loan |
| Availability.UpdateThenSyncKeepsHypothesis | src/main/java/io/acordi/msbiblioteca/domain/services/EmprestimoService.java:140-152 | an update followed by the trigger keeps the status in line with the loans; when it sets a return date it also keeps one open loan per book, and frees the book if it closed that book's open loan |
| Availability.DeleteThenSyncKeepsHypothesis | src/main/java/io/acordi/msbiblioteca/domain/services/EmprestimoService.java:154-165 | a delete followed by the trigger keeps the hypothesis, and frees the book if the deleted loan was open |
| Availability.SavingOnLoanBreaksHypothesis | src/main/java/io/acordi/msbiblioteca/domain/services/LivroService.java:148-171 | saving a book with status EMPRESTADO succeeds and yields a book EMPRESTADO without any loan |

## Left out

- Database triggers: the status flip and the fine generation are not in the source's code. The status flip is modelled only as the assumed step `Availability.SyncBookStatus`. No fine-amount formula exists in the code, so automatic fine generation on a late return is not modelled.
- Where the design and the code disagree, the model follows the code:
  - the create check reads the stored status, not the open loans;
  - the expected date is not checked against the loan date;
  - an update can reopen a returned loan;
  - a fine's member need not be the loan's member.
- Transactions and concurrency: each operation is one atomic step on an immutable store. A failure returns no store, which stands for the rollback.
- Clock: `LocalDate.now()` and `LocalDateTime.now()` are the parameters `today` and `now`.
- The DTO's optional `id`, which makes `save` merge into an existing row, is not modelled; saves always take a fresh identifier.
- Foreign-key and NOT NULL constraints checked by the database at flush time are not modelled. `Valid` keeps only the identity-counter facts the proofs need.
- `StatusLivro.java` is not part of this model; the status is taken to have exactly the constants DISPONIVEL and EMPRESTADO, in that order.
- Amounts are whole cents (`@Column(precision = 6, scale = 2)`). BigDecimal values finer than a cent, and the column's range check on write (at most 9999.99), are not modelled.
- `findRandomLivros` (LivroRepository.java:33-34) depends on `RAND()` and is left out.
- DTO conversion back to responses (`convertToDto`), the display-only DTO fields, `LivroDTO` validation, and the Autor and Membro services are outside the core.
- Text.Upper: upper-cases ASCII letters only; SQL `UPPER` on other characters depends on the database collation.
- Sorted queries leave the order among equal keys unspecified, as SQL does.
- LoanService.Create: requires the request's `@NotNull` fields to be present, because the controller validates the request before the call; the `@Future` check is `Dto.LoanDtoValid` and is not re-checked.
- LoanService.Update: requires both mandatory dates, as the controller's validation guarantees; with a null date the source would fail only at flush, on the NOT NULL column.
- FineService.Create: requires loan, member and amount to be present, as the controller's validation guarantees.
- FineService.Update: requires the amount to be present, for the same reason.
- LoanService.Create, FineService.Create, BookService.Save: require `Valid(s)` so that the identity counter hands out an unused key, as the database's identity column does.

=== FILE: availability.dfy ===
/**
  Book availability. The loan service decides availability from the
  book's stored status, while `findLivrosDisponiveis` decides it from open
  loans; the two agree only while the status reflects the loans. The code
  never writes the status on a loan event: its comments leave that to
  database triggers. This module states the agreement as a hypothesis,
  models the trigger as a separately named, assumed step, proves that
  create, return and delete followed by that step keep the hypothesis,
  and that a correction followed by it keeps the status in line with the
  loans and, when it sets a return date, one open loan per book. It shows
  that four operations break the hypothesis when no trigger follows them:
  saving a book, updating a book, correcting a loan and deleting a loan.
  A correction that reopens a loan breaks the single open loan per book
  whether or not the trigger runs.
 */
module Availability {
  import opened Common
  import opened StatusConverter
  import opened Entities
  import opened Dto
  import opened Database
  import BookRepository
  import LoanService
  import BookService

  /** The hypothesis: a book's status is EMPRESTADO exactly when it has an open loan. */
  predicate StatusReflectsLoans(s: Store) {
    forall b :: b in s.books ==> (StatusOf(s.books[b]) == Emprestado <==> HasOpenLoan(s, b))
  }

  /** No book has two open loans. */
  predicate SingleOpenLoan(s: Store) {
    forall k1, k2 ::
      k1 in s.loans && k2 in s.loans && IsOpen(s.loans[k1]) && IsOpen(s.loans[k2])
      && s.loans[k1].book == s.loans[k2].book
      ==> k1 == k2
  }

  /**
    Under the hypothesis, creating a loan never gives a book a second open
    loan: the book it succeeds for had none before.
   */
  lemma {:induction false} CreateKeepsSingleOpenLoan(s: Store, d: LoanDto)
    requires Valid(s) && LoanDtoComplete(d)
    requires StatusReflectsLoans(s) && SingleOpenLoan(s)
    requires LoanService.Create(s, d).Success?
    ensures !HasOpenLoan(s, d.bookId.value)
    ensures SingleOpenLoan(LoanService.Create(s, d).value.store)
  {
    var saved := LoanService.Create(s, d).value;
    var s', id := saved.store, saved.id;
    assert StatusOf(s.books[d.bookId.value]) != Emprestado;
    forall k1, k2 | k1 in s'.loans && k2 in s'.loans && IsOpen(s'.loans[k1]) && IsOpen(s'.loans[k2])
                    && s'.loans[k1].book == s'.loans[k2].book
      ensures k1 == k2
    {
    }
  }

  /**
    The assumed trigger: after a loan row of `book` is written, the book's
    status is recomputed from its open loans. It is not in the code; it
    stands for the triggers the code's comments rely on.
   */
  function SyncBookStatus(s: Store, book: int): (s': Store)
    ensures book in s.books ==>
              s' == s.(books := s.books[book := s.books[book].(status := Some(if HasOpenLoan(s, book) then Emprestado else Disponivel))])
    ensures book !in s.books ==> s' == s
    ensures s'.loans == s.loans
  {
    if book !in s.books then s
    else
      var st := if HasOpenLoan(s, book) then Emprestado else Disponivel;
      s.(books := s.books[book := s.books[book].(status := Some(st))])
  }

  /** Recomputing one book's status keeps the hypothesis for every book whose loans did not change. */
  lemma {:induction false} SyncRestoresBook(s: Store, before: Store, book: int)
    requires s.books == before.books
    requires StatusReflectsLoans(before)
    requires forall b :: b != book ==> (HasOpenLoan(s, b) <==> HasOpenLoan(before, b))
    ensures StatusReflectsLoans(SyncBookStatus(s, book))
  {
    var s' := SyncBookStatus(s, book);
    forall b | b in s'.books ensures StatusOf(s'.books[b]) == Emprestado <==> HasOpenLoan(s', b) {
      assert HasOpenLoan(s', b) == HasOpenLoan(s, b);
      if b != book {
        assert s'.books[b] == before.books[b];
      }
    }
  }

  /** Create followed by the assumed trigger keeps both the hypothesis and the single open loan per book. */
  lemma {:induction false} CreateThenSyncKeepsHypothesis(s: Store, d: LoanDto)
    requires Valid(s) && LoanDtoComplete(d)
    requires StatusReflectsLoans(s) && SingleOpenLoan(s)
    requires LoanService.Create(s, d).Success?
    ensures StatusReflectsLoans(SyncBookStatus(LoanService.Create(s, d).value.store, d.bookId.value))
    ensures SingleOpenLoan(SyncBookStatus(LoanService.Create(s, d).value.store, d.bookId.value))
    ensures d.returnDate.None? ==>
              StatusOf(SyncBookStatus(LoanService.Create(s, d).value.store, d.bookId.value).books[d.bookId.value]) == Emprestado
  {
    var saved := LoanService.Create(s, d).value;
    var s', id, book := saved.store, saved.id, d.bookId.value;
    CreateKeepsSingleOpenLoan(s, d);
    forall b | b != book ensures HasOpenLoan(s', b) <==> HasOpenLoan(s, b) {
      if k :| k in s'.loans && s'.loans[k].book == b && IsOpen(s'.loans[k]) {
        assert k != id && k in s.loans;
      }
      if k :| k in s.loans && s.loans[k].book == b && IsOpen(s.loans[k]) {
        assert k in s'.loans && s'.loans[k] == s.loans[k];
      }
    }
    SyncRestoresBook(s', s, book);
    if d.returnDate.None? {
      assert id in s'.loans && s'.loans[id].book == book && IsOpen(s'.loans[id]);
    }
  }

  /** Return followed by the assumed trigger keeps the hypothesis and leaves the book DISPONIVEL. */
  lemma {:induction false} ReturnThenSyncKeepsHypothesis(s: Store, id: int, date: Option<Day>, today: Day)
    requires StatusReflectsLoans(s) && SingleOpenLoan(s)
    requires LoanService.Return(s, id, date, today).Success?
    ensures StatusReflectsLoans(SyncBookStatus(LoanService.Return(s, id, date, today).value.store, s.loans[id].book))
    ensures SingleOpenLoan(SyncBookStatus(LoanService.Return(s, id, date, today).value.store, s.loans[id].book))
    ensures s.loans[id].book in s.books ==>
              StatusOf(SyncBookStatus(LoanService.Return(s, id, date, today).value.store, s.loans[id].book).books[s.loans[id].book]) == Disponivel
  {
    var s' := LoanService.Return(s, id, date, today).value.store;
    var book := s.loans[id].book;
    forall b ensures HasOpenLoan(s', b) ==> HasOpenLoan(s, b) && b != book {
      if k :| k in s'.loans && s'.loans[k].book == b && IsOpen(s'.loans[k]) {
        assert k != id && k in s.loans && IsOpen(s.loans[k]);
        assert IsOpen(s.loans[id]);
      }
    }
    forall b | b != book ensures HasOpenLoan(s', b) <==> HasOpenLoan(s, b) {
      if k :| k in s.loans && s.loans[k].book == b && IsOpen(s.loans[k]) {
        assert k != id && s'.loans[k] == s.loans[k];
      }
    }
    SyncRestoresBook(s', s, book);
  }

  /**
    Under the hypothesis, `findLivrosDisponiveis` (no open loan) and
    `findByStatus(DISPONIVEL)` (stored status) list the same books.
   */
  lemma {:induction false} AvailableAgreesWithStatus(t: seq<Row<Book>>, loans: seq<Row<Loan>>, s: Store)
    requires IsScan(t, s.books) && IsScan(loans, s.loans)
    requires StatusReflectsLoans(s)
    ensures forall x :: x in BookRepository.Available(t, loans) <==> x in BookRepository.ByStatus(t, Disponivel)
  {
    BookRepository.AvailableMatchesStore(t, loans, s);
    forall x | x in t ensures x.id in s.books && s.books[x.id] == x.rec {
      var i :| 0 <= i < |t| && t[i] == x;
    }
  }

  /** `LivroService.update` sets the status verbatim, so it can break the hypothesis: EMPRESTADO with no loan at all. */
  lemma BookUpdateCanBreakHypothesis()
    ensures var s := Store(map[], map[], map[1 := Book(Some("Dom Casmurro"), Some(1899), Some(Disponivel), {})],
                           map[], map[], 2, 1, 1);
            var r := BookService.Update(s, 1, BookDto(Some("Dom Casmurro"), Some(1899), Some(Emprestado), None));
            StatusReflectsLoans(s) && r.Success? && !StatusReflectsLoans(r.value.store)
  {
    var s := Store(map[], map[], map[1 := Book(Some("Dom Casmurro"), Some(1899), Some(Disponivel), {})],
                   map[], map[], 2, 1, 1);
    var s' := BookService.Update(s, 1, BookDto(Some("Dom Casmurro"), Some(1899), Some(Emprestado), None)).value.store;
    assert !HasOpenLoan(s', 1);
  }

  /**
    `EmprestimoService.update` copies a null return date, so it can reopen
    a returned loan of a book that is on loan again: two open loans, which
    the trigger step does not undo.
   */
  lemma LoanUpdateCanReopen()
    ensures var s := Store(map[1 := Member("Ana", "ana@x")], map[],
                           map[1 := Book(Some("Iracema"), Some(1865), Some(Emprestado), {})],
                           map[1 := Loan(1, 1, 0, 10, Some(5)), 2 := Loan(1, 1, 6, 16, None)], map[], 2, 3, 1);
            var r := LoanService.Update(s, 1, LoanDto(Some(1), Some(1), Some(0), Some(10), None));
            SingleOpenLoan(s) && r.Success? && !SingleOpenLoan(r.value.store)
            && !SingleOpenLoan(SyncBookStatus(r.value.store, 1))
  {
    var s := Store(map[1 := Member("Ana", "ana@x")], map[],
                   map[1 := Book(Some("Iracema"), Some(1865), Some(Emprestado), {})],
                   map[1 := Loan(1, 1, 0, 10, Some(5)), 2 := Loan(1, 1, 6, 16, None)], map[], 2, 3, 1);
    var s' := LoanService.Update(s, 1, LoanDto(Some(1), Some(1), Some(0), Some(10), None)).value.store;
    assert IsOpen(s'.loans[1]) && IsOpen(s'.loans[2]) && s'.loans[1].book == s'.loans[2].book;
  }

  /**
    `EmprestimoService.delete` of an open loan without fines succeeds and,
    when no trigger follows the delete, leaves its book EMPRESTADO with no
    open loan.
   */
  lemma {:induction false} DeletingOpenLoanBreaksHypothesis(s: Store, id: int)
    requires StatusReflectsLoans(s) && SingleOpenLoan(s)
    requires id in s.loans && IsOpen(s.loans[id]) && s.loans[id].book in s.books
    requires FinesOfLoan(s, id) == {}
    ensures LoanService.Delete(s, id).Success?
    ensures !StatusReflectsLoans(LoanService.Delete(s, id).value)
  {
    var s' := LoanService.Delete(s, id).value;
    var book := s.loans[id].book;
    assert HasOpenLoan(s, book);
    assert !HasOpenLoan(s', book) by {
      forall k | k in s'.loans && s'.loans[k].book == book ensures !IsOpen(s'.loans[k]) {
        assert k in s.loans && k != id;
      }
    }
  }

  /**
    `EmprestimoService.update` with a return date closes an open loan; when
    no trigger follows the update, as one might follow a return, the book
    stays EMPRESTADO with no open loan.
   */
  lemma {:induction false} ClosingByUpdateBreaksHypothesis(s: Store, id: int, d: LoanDto)
    requires StatusReflectsLoans(s) && SingleOpenLoan(s)
    requires id in s.loans && IsOpen(s.loans[id]) && s.loans[id].book in s.books
    requires d.loanDate.Some? && d.expectedDate.Some? && d.returnDate.Some?
    ensures LoanService.Update(s, id, d).Success?
    ensures !StatusReflectsLoans(LoanService.Update(s, id, d).value.store)
  {
    var s' := LoanService.Update(s, id, d).value.store;
    var book := s.loans[id].book;
    assert HasOpenLoan(s, book);
    assert !HasOpenLoan(s', book) by {
      forall k | k in s'.loans && s'.loans[k].book == book ensures !IsOpen(s'.loans[k]) {
        if k != id {
          assert k in s.loans && s'.loans[k] == s.loans[k];
        }
      }
    }
  }

  /**
    A correction by `EmprestimoService.update` followed by the trigger step
    keeps the status in line with the loans, and, when the correction sets a
    return date, keeps one open loan per book and frees a book whose open
    loan it closed.
   */
  lemma {:induction false} UpdateThenSyncKeepsHypothesis(s: Store, id: int, d: LoanDto)
    requires StatusReflectsLoans(s) && SingleOpenLoan(s)
    requires d.loanDate.Some? && d.expectedDate.Some?
    requires LoanService.Update(s, id, d).Success?
    ensures StatusReflectsLoans(SyncBookStatus(LoanService.Update(s, id, d).value.store, s.loans[id].book))
    ensures d.returnDate.Some? ==>
              SingleOpenLoan(SyncBookStatus(LoanService.Update(s, id, d).value.store, s.loans[id].book))
    ensures d.returnDate.Some? && IsOpen(s.loans[id]) && s.loans[id].book in s.books ==>
              StatusOf(SyncBookStatus(LoanService.Update(s, id, d).value.store, s.loans[id].book).books[s.loans[id].book]) == Disponivel
  {
    var s' := LoanService.Update(s, id, d).value.store;
    var book := s.loans[id].book;
    forall b | b != book ensures HasOpenLoan(s', b) <==> HasOpenLoan(s, b) {
      if k :| k in s'.loans && s'.loans[k].book == b && IsOpen(s'.loans[k]) {
        assert k != id && s.loans[k] == s'.loans[k];
      }
      if k :| k in s.loans && s.loans[k].book == b && IsOpen(s.loans[k]) {
        assert k != id && s'.loans[k] == s.loans[k];
      }
    }
    SyncRestoresBook(s', s, book);
    if d.returnDate.Some? {
      forall k | k in s'.loans && IsOpen(s'.loans[k]) ensures k != id && s.loans[k] == s'.loans[k] {
      }
      if IsOpen(s.loans[id]) {
        assert !HasOpenLoan(s', book) by {
          forall k | k in s'.loans && s'.loans[k].book == book ensures !IsOpen(s'.loans[k]) {
            if k != id {
              assert s.loans[k] == s'.loans[k];
            }
          }
        }
      }
    }
  }

  /**
    `EmprestimoService.delete` followed by the trigger step keeps the
    hypothesis, and frees the book when the deleted loan was open.
   */
  lemma {:induction false} DeleteThenSyncKeepsHypothesis(s: Store, id: int)
    requires StatusReflectsLoans(s) && SingleOpenLoan(s)
    requires LoanService.Delete(s, id).Success?
    ensures StatusReflectsLoans(SyncBookStatus(LoanService.Delete(s, id).value, s.loans[id].book))
    ensures SingleOpenLoan(SyncBookStatus(LoanService.Delete(s, id).value, s.loans[id].book))
    ensures IsOpen(s.loans[id]) && s.loans[id].book in s.books ==>
              StatusOf(SyncBookStatus(LoanService.Delete(s, id).value, s.loans[id].book).books[s.loans[id].book]) == Disponivel
  {
    var s' := LoanService.Delete(s, id).value;
    var book := s.loans[id].book;
    forall b | b != book ensures HasOpenLoan(s', b) <==> HasOpenLoan(s, b) {
      if k :| k in s.loans && s.loans[k].book == b && IsOpen(s.loans[k]) {
        assert k != id && k in s'.loans;
      }
    }
    SyncRestoresBook(s', s, book);
    if IsOpen(s.loans[id]) {
      assert !HasOpenLoan(s', book) by {
        forall k | k in s'.loans && s'.loans[k].book == book ensures !IsOpen(s'.loans[k]) {
          assert k in s.loans && k != id;
        }
      }
    }
  }

  /** `LivroService.save` copies the status, so a new book can be EMPRESTADO without any loan. */
  lemma {:induction false} SavingOnLoanBreaksHypothesis(s: Store, d: BookDto)
    requires Valid(s)
    requires d.status == Some(Emprestado) && d.authors.None?
    ensures BookService.Save(s, d).Success?
    ensures !StatusReflectsLoans(BookService.Save(s, d).value.store)
  {
    var saved := BookService.Save(s, d).value;
    assert saved.id in saved.store.books && StatusOf(saved.store.books[saved.id]) == Emprestado;
    assert LoansOfBook(saved.store, saved.id) == {};
    assert !HasOpenLoan(saved.store, saved.id);
  }
}

=== FILE: book_repository.dfy ===
/**
  The book queries of `LivroRepository`, over a scan of the book table and,
  where a query joins loans, a scan of the loan table.
 */
module BookRepository {
  import opened Common
  import opened StatusConverter
  import opened Entities
  import opened Seqs
  import opened Text
  import opened Database

  /** `findByTituloContainingIgnoreCase`: a null title never matches. */
  function ByTitle(t: seq<Row<Book>>, q: string): (r: seq<Row<Book>>)
    ensures forall x :: x in r <==> x in t && x.rec.title.Some? && ContainsIgnoringCase(x.rec.title.value, q)
  {
    Filter(t, (x: Row<Book>) => x.rec.title.Some? && ContainsIgnoringCase(x.rec.title.value, q))
  }

  /** Searching titles with the empty string lists every book with a title, in table order. */
  lemma {:induction false} EmptyTitleListsTitled(t: seq<Row<Book>>)
    ensures ByTitle(t, "") == Filter(t, (x: Row<Book>) => x.rec.title.Some?)
  {
    forall i | 0 <= i < |t| && t[i].rec.title.Some? ensures ContainsIgnoringCase(t[i].rec.title.value, "") {
      MatchesEmptyAndItself(t[i].rec.title.value);
    }
    FilterAgrees(t, (x: Row<Book>) => x.rec.title.Some? && ContainsIgnoringCase(x.rec.title.value, ""),
                 (x: Row<Book>) => x.rec.title.Some?);
  }

  /** The status column holds `ToColumn` of the stored field; a status parameter is converted the same way. */
  lemma ColumnMatchesStatus(b: Book, st: Status)
    ensures ToColumn(b.status) == ToColumn(Some(st)) <==> StatusOf(b) == st
  {
    match b.status
    case None =>
    case Some(v) =>
      if Name(v) == Name(st) {
        assert Name(v)[0] == Name(st)[0];
      }
  }

  /**
    `findByStatus`: compares the status column with the converted
    parameter, so a book whose field is null is found as DISPONIVEL.
   */
  function ByStatus(t: seq<Row<Book>>, st: Status): (r: seq<Row<Book>>)
    ensures forall x :: x in r <==> x in t && StatusOf(x.rec) == st
  {
    forall b: Book ensures ToColumn(b.status) == ToColumn(Some(st)) <==> StatusOf(b) == st {
      ColumnMatchesStatus(b, st);
    }
    Filter(t, (x: Row<Book>) => ToColumn(x.rec.status) == ToColumn(Some(st)))
  }

  /** `findByAnoPublicacao`. */
  function ByYear(t: seq<Row<Book>>, year: int): (r: seq<Row<Book>>)
    ensures forall x :: x in r <==> x in t && x.rec.year == Some(year)
  {
    Filter(t, (x: Row<Book>) => x.rec.year == Some(year))
  }

  /** `findByAnoPublicacaoBetween`: BETWEEN includes both bounds; a null year never matches. */
  function ByYearBetween(t: seq<Row<Book>>, start: int, end: int): (r: seq<Row<Book>>)
    ensures forall x :: x in r <==> x in t && x.rec.year.Some? && start <= x.rec.year.value <= end
    ensures start > end ==> r == []
  {
    Filter(t, (x: Row<Book>) => x.rec.year.Some? && start <= x.rec.year.value <= end)
  }

  /** `findByAutorId`. */
  function ByAuthor(t: seq<Row<Book>>, author: int): (r: seq<Row<Book>>)
    ensures forall x :: x in r <==> x in t && author in x.rec.authors
  {
    Filter(t, (x: Row<Book>) => author in x.rec.authors)
  }

  /** The books some open loan references. */
  function OnLoanIds(loans: seq<Row<Loan>>): set<int> {
    set l | l in loans && IsOpen(l.rec) :: l.rec.book
  }

  /**
    `findLivrosDisponiveis`: the books no open loan references. The stored
    status field plays no part.
   */
  function Available(t: seq<Row<Book>>, loans: seq<Row<Loan>>): (r: seq<Row<Book>>)
    ensures forall x :: x in r <==> x in t && forall l :: l in loans && l.rec.book == x.id ==> l.rec.returnDate.Some?
  {
    var onLoan := OnLoanIds(loans);
    Filter(t, (x: Row<Book>) => x.id !in onLoan)
  }

  /** How many loans reference the book: COUNT over `JOIN l.emprestimos`. */
  function BorrowCount(loans: seq<Row<Loan>>, book: int): nat {
    Count(loans, (l: Row<Loan>) => l.rec.book == book)
  }

  /**
    `findLivrosMaisEmprestados`: the inner join keeps the books with at least
    one loan; they come out by loan count, largest first.
   */
  function MostBorrowed(t: seq<Row<Book>>, loans: seq<Row<Loan>>): (r: seq<Row<Book>>)
    ensures forall x :: multiset(r)[x] == if BorrowCount(loans, x.id) >= 1 then multiset(t)[x] else 0
    ensures forall x :: x in r ==> BorrowCount(loans, x.id) >= 1
    ensures forall i, j :: 0 <= i < j < |r| ==> BorrowCount(loans, r[i].id) >= BorrowCount(loans, r[j].id)
  {
    var key := (x: Row<Book>) => BorrowCount(loans, x.id);
    var h := SortDesc(Filter(t, (x: Row<Book>) => BorrowCount(loans, x.id) >= 1), key);
    assert SortedDesc(h, key);
    h
  }

  /**
    Over a scan of the loan table, a book is listed as available exactly
    when the store holds no open loan for it.
   */
  lemma {:induction false} AvailableMatchesStore(t: seq<Row<Book>>, loans: seq<Row<Loan>>, s: Store)
    requires IsScan(loans, s.loans)
    ensures forall x :: x in Available(t, loans) <==> x in t && !HasOpenLoan(s, x.id)
  {
    forall x | x in t
      ensures (forall l :: l in loans && l.rec.book == x.id ==> l.rec.returnDate.Some?) <==> !HasOpenLoan(s, x.id)
    {
      if k :| k in s.loans && s.loans[k].book == x.id && IsOpen(s.loans[k]) {
        var i :| 0 <= i < |loans| && loans[i].id == k;
        assert loans[i] in loans && loans[i].rec == s.loans[k];
      }
      forall l | l in loans && l.rec.book == x.id && IsOpen(l.rec) ensures HasOpenLoan(s, x.id) {
        var i :| 0 <= i < |loans| && loans[i] == l;
        assert l.id in s.loans && s.loans[l.id] == l.rec;
      }
    }
  }

  /** A range of a single year finds the same books as `findByAnoPublicacao` of that year. */
  lemma {:induction false} SingleYearRange(t: seq<Row<Book>>, year: int)
    ensures ByYearBetween(t, year, year) == ByYear(t, year)
  {
    FilterAgrees(t, (x: Row<Book>) => x.rec.year.Some? && year <= x.rec.year.value <= year,
                 (x: Row<Book>) => x.rec.year == Some(year));
  }

  /** Over a scan of the book table, `findByAutorId` lists exactly the stored books the author is linked to. */
  lemma {:induction false} ByAuthorMatchesStore(t: seq<Row<Book>>, s: Store, author: int)
    requires IsScan(t, s.books)
    ensures (set x | x in ByAuthor(t, author) :: x.id) == set k | k in s.books && author in s.books[k].authors
  {
    var listed := set x | x in ByAuthor(t, author) :: x.id;
    var stored := set k | k in s.books && author in s.books[k].authors;
    forall k | k in listed ensures k in stored {
      var x :| x in ByAuthor(t, author) && x.id == k;
      var i :| 0 <= i < |t| && t[i] == x;
    }
    forall k | k in stored ensures k in listed {
      var i :| 0 <= i < |t| && t[i].id == k;
      assert t[i] in t && t[i] in ByAuthor(t, author);
    }
  }
}

=== FILE: book_service.dfy ===
/**
  `LivroService`: saving, updating and deleting books. Authors are given
  by identifier and must all exist; the status is copied from the request
  with no regard to the book's loans.
 */
module BookService {
  import opened Common
  import opened StatusConverter
  import opened Entities
  import opened Dto
  import opened Database

  /** Whether an author entry of the request names a stored author: its identifier is present and known. */
  predicate KnownAuthor(authors: map<int, Author>, e: Option<int>) {
    e.Some? && e.value in authors
  }

  /** The failure an entry that is not a known author raises: a null identifier, or an unknown one. */
  function AuthorError(e: Option<int>): Err {
    if e.None? then NullIdentifier(AuthorEntity) else NotFound(AuthorEntity, e.value)
  }

  /**
    The author loop: every entry is looked up in turn, and the first one
    that is null or unknown aborts the loop with its failure; otherwise the
    result is the set of all the identifiers.
   */
  function ResolveAuthors(authors: map<int, Author>, ids: seq<Option<int>>): (r: Result<set<int>>)
    ensures r.Success? <==> forall i :: 0 <= i < |ids| ==> KnownAuthor(authors, ids[i])
    ensures r.Success? ==> forall x :: x in r.value <==> Some(x) in ids
    ensures r.Failure? ==>
              exists i :: 0 <= i < |ids| && !KnownAuthor(authors, ids[i])
                          && (forall j :: 0 <= j < i ==> KnownAuthor(authors, ids[j]))
                          && r.error == AuthorError(ids[i])
  {
    if |ids| == 0 then Success({})
    else if !KnownAuthor(authors, ids[0]) then Failure(AuthorError(ids[0]))
    else
      assert ids == [ids[0]] + ids[1..];
      match ResolveAuthors(authors, ids[1..])
      case Failure(e) =>
        assert forall j :: 1 <= j < |ids| ==> ids[j] == ids[1..][j - 1];
        Failure(e)
      case Success(rest) =>
        Success({ids[0].value} + rest)
  }

  /**
    `save` (through `convertToEntity`): a blank book takes the request's
    title, year and status, the status even when it is null; the authors
    are resolved when the request lists any, and stay empty otherwise.
   */
  function Save(s: Store, d: BookDto): (r: Result<Saved<Book>>)
    requires Valid(s)
    ensures r.Failure? <==> d.authors.Some? && exists i :: 0 <= i < |d.authors.value| && !KnownAuthor(s.authors, d.authors.value[i])
    ensures r.Failure? ==>
              && d.authors.Some?
              && exists i :: 0 <= i < |d.authors.value| && r.error == AuthorError(d.authors.value[i])
                             && !KnownAuthor(s.authors, d.authors.value[i])
    ensures r.Success? ==>
              && r.value.id !in s.books
              && r.value.record.title == d.title
              && r.value.record.year == d.year
              && r.value.record.status == d.status
              && (forall x :: x in r.value.record.authors <==> d.authors.Some? && Some(x) in d.authors.value)
              && r.value.store == s.(books := s.books[r.value.id := r.value.record], nextBook := s.nextBook + 1)
              && LoansOfBook(r.value.store, r.value.id) == {}
              && Valid(r.value.store)
  {
    var authorsOrFailure :=
      if d.authors.None? then Success(BlankBook.authors) else ResolveAuthors(s.authors, d.authors.value);
    match authorsOrFailure
    case Failure(e) => Failure(e)
    case Success(authors) =>
      var id := s.nextBook;
      var book := BlankBook.(title := d.title, year := d.year, status := d.status, authors := authors);
      var s' := s.(books := s.books[id := book], nextBook := s.nextBook + 1);
      assert forall k :: k in s'.loans ==> s'.loans[k].book != id;
      Success(Saved(s', id, book))
  }

  /** Whether an update replaces the authors: the request lists at least one. */
  predicate ReplacesAuthors(d: BookDto) {
    d.authors.Some? && |d.authors.value| > 0
  }

  /**
    `update`: the book must exist; title, year and status are overwritten;
    the authors are replaced only when the request lists some, and an
    unknown author aborts the whole update.
   */
  function Update(s: Store, id: int, d: BookDto): (r: Result<Saved<Book>>)
    ensures id !in s.books <==> r == Failure(NotFound(BookEntity, id))
    ensures r.Success? <==>
              id in s.books
              && (ReplacesAuthors(d) ==> forall i :: 0 <= i < |d.authors.value| ==> KnownAuthor(s.authors, d.authors.value[i]))
    ensures id in s.books && r.Failure? ==>
              && ReplacesAuthors(d)
              && exists i :: 0 <= i < |d.authors.value| && r.error == AuthorError(d.authors.value[i])
                             && !KnownAuthor(s.authors, d.authors.value[i])
    ensures id in s.books && ReplacesAuthors(d)
            && (exists i :: 0 <= i < |d.authors.value| && !KnownAuthor(s.authors, d.authors.value[i]))
            ==> r.Failure?
    ensures r.Success? ==>
              && r.value.id == id
              && r.value.record.title == d.title
              && r.value.record.year == d.year
              && r.value.record.status == d.status
              && (ReplacesAuthors(d) ==> forall x :: x in r.value.record.authors <==> Some(x) in d.authors.value)
              && (!ReplacesAuthors(d) ==> r.value.record.authors == s.books[id].authors)
              && r.value.store == s.(books := s.books[id := r.value.record])
    ensures r.Success? && Valid(s) ==> Valid(r.value.store)
  {
    if id !in s.books then Failure(NotFound(BookEntity, id))
    else
      var authorsOrFailure :=
        if ReplacesAuthors(d) then ResolveAuthors(s.authors, d.authors.value) else Success(s.books[id].authors);
      match authorsOrFailure
      case Failure(e) => Failure(e)
      case Success(authors) =>
        var book := s.books[id].(title := d.title, year := d.year, status := d.status, authors := authors);
        Success(Saved(s.(books := s.books[id := book]), id, book))
  }

  /** `delete`: only that book goes. */
  function Delete(s: Store, id: int): (r: Result<Store>)
    ensures id !in s.books <==> r == Failure(NotFound(BookEntity, id))
    ensures r.Success? <==> id in s.books
    ensures r.Success? ==>
              && r.value.books == s.books - {id}
              && |r.value.books| == |s.books| - 1
              && r.value == s.(books := r.value.books)
    ensures r.Success? && Valid(s) ==> Valid(r.value)
  {
    if id !in s.books then Failure(NotFound(BookEntity, id))
    else Success(s.(books := s.books - {id}))
  }

  /** A book just saved can be deleted again, and deleting it restores the book table. */
  lemma {:induction false} SaveThenDeleteRestores(s: Store, d: BookDto)
    requires Valid(s)
    requires Save(s, d).Success?
    ensures Delete(Save(s, d).value.store, Save(s, d).value.id).Success?
    ensures Delete(Save(s, d).value.store, Save(s, d).value.id).value.books == s.books
  {
    var saved := Save(s, d).value;
    assert saved.store.books - {saved.id} == s.books;
  }

  /** Updating twice with the same request is the same as updating once. */
  lemma {:induction false} UpdateIdempotent(s: Store, id: int, d: BookDto)
    requires Update(s, id, d).Success?
    ensures Update(Update(s, id, d).value.store, id, d) == Update(s, id, d)
  {
    var r := Update(s, id, d).value;
    if ReplacesAuthors(d) {
      assert ResolveAuthors(r.store.authors, d.authors.value) == ResolveAuthors(s.authors, d.authors.value);
    }
    assert r.store.books[id := r.record] == r.store.books;
  }
}

=== FILE: common.dfy ===
/**
  Shared vocabulary of the library model: optional values (Java's nullable
  references), the two business failures the services raise, and the
  result type every store-changing operation returns.
 */
module Common {

  /** A nullable value: `None` plays the part of Java's `null`. */
  datatype Option<T> = None | Some(value: T) {

    /** The value, or `default` when it is absent. */
    function GetOr(default: T): T {
      match this
      case Some(v) => v
      case None => default
    }
  }

  /** A calendar day (`LocalDate`), counted in whole days. */
  type Day = int

  /** A point in time (`LocalDateTime`), counted in ticks of the clock. */
  type Instant = int

  /** Amounts of money in cents: the fine column has precision 6, scale 2. */
  type Cents = int

  /** Which kind of record a lookup failed to find. */
  datatype Entity = MemberEntity | BookEntity | AuthorEntity | LoanEntity | FineEntity

  /** The business rule an `InvalidState` failure reports. */
  datatype Conflict =
    | BookOnLoan        // the book's status is EMPRESTADO
    | LoanLimitReached  // the member already holds 3 active loans
    | AlreadyReturned   // the loan already has a return date
    | LoanHasFines      // the loan still has fines attached

  /**
    The failures: the two business ones, `ResourceNotFoundException`
    (HTTP 404) and `IllegalStateException` (HTTP 400), and the repository's
    refusal of a null identifier in `findById`, which only the generic
    handler catches (HTTP 500).
   */
  datatype Err =
    | NotFound(entity: Entity, id: int)
    | InvalidState(conflict: Conflict)
    | NullIdentifier(entity: Entity)

  datatype Result<T> = Success(value: T) | Failure(error: Err)
}

=== FILE: database.dfy ===
/**
  The relational store the services work against: one map per table,
  keyed by generated identifier, and the next identifier each IDENTITY
  column will hand out. Back-references of the JPA entities are the
  lookups defined here.
 */
module Database {
  import opened Common
  import opened Entities
  import opened Seqs

  datatype Store = Store(
    members: map<int, Member>,
    authors: map<int, Author>,
    books: map<int, Book>,
    loans: map<int, Loan>,
    fines: map<int, Fine>,
    nextBook: int,
    nextLoan: int,
    nextFine: int)

  /** What a successful save returns: the new store, the row's identifier and the row. */
  datatype Saved<T> = Saved(store: Store, id: int, record: T)

  /**
    Every identifier already handed out lies below its counter, and loans
    and fines only reference books and loans that were handed out.
   */
  predicate Valid(s: Store) {
    && (forall k :: k in s.books ==> k < s.nextBook)
    && (forall k :: k in s.loans ==> k < s.nextLoan)
    && (forall k :: k in s.fines ==> k < s.nextFine)
    && (forall k :: k in s.loans ==> s.loans[k].book < s.nextBook)
    && (forall k :: k in s.fines ==> s.fines[k].loan < s.nextLoan)
  }

  /** The member's loans whose return date is null. */
  function ActiveLoansOf(s: Store, member: int): set<int> {
    set k | k in s.loans && s.loans[k].member == member && IsOpen(s.loans[k])
  }

  /** How many open loans the member holds. */
  function ActiveCount(s: Store, member: int): nat {
    |ActiveLoansOf(s, member)|
  }

  /** `Emprestimo.multas`: the fines that reference the loan. */
  function FinesOfLoan(s: Store, loan: int): set<int> {
    set k | k in s.fines && s.fines[k].loan == loan
  }

  /** `Livro.emprestimos`: the loans that reference the book. */
  function LoansOfBook(s: Store, book: int): set<int> {
    set k | k in s.loans && s.loans[k].book == book
  }

  /** Some loan of the book has a null return date. */
  predicate HasOpenLoan(s: Store, book: int) {
    exists k :: k in s.loans && s.loans[k].book == book && IsOpen(s.loans[k])
  }

  /**
    `t` lists the rows of table `m`, each exactly once, in some order: what
    a query reads when it scans the table.
   */
  ghost predicate IsScan<T>(t: seq<Row<T>>, m: map<int, T>) {
    && (forall i :: 0 <= i < |t| ==> t[i].id in m && m[t[i].id] == t[i].rec)
    && (forall k :: k in m ==> exists i :: 0 <= i < |t| && t[i].id == k)
    && (forall i, j :: 0 <= i < j < |t| ==> t[i].id != t[j].id)
  }

  /** Counting the rows of a scan that satisfy `q` counts the keys of the table whose record satisfies it. */
  lemma {:induction false} ScanCount<T>(t: seq<Row<T>>, m: map<int, T>, q: Row<T> -> bool, keys: set<int>)
    requires IsScan(t, m)
    requires forall k :: k in keys <==> k in m && q(Row(k, m[k]))
    ensures Count(t, q) == |keys|
    decreases |t|
  {
    if |t| == 0 {
      forall k | k in m ensures false {
        assert false;  // an empty scan lists no key
      }
      assert m == map[];
      assert forall k :: k !in keys;
      assert keys == {};
    } else {
      var x := t[0];
      var m' := m - {x.id};
      assert IsScan(t[1..], m') by {
        forall i | 0 <= i < |t[1..]| ensures t[1..][i].id in m' && m'[t[1..][i].id] == t[1..][i].rec {
          assert t[1..][i] == t[i + 1];
          assert t[0].id != t[i + 1].id;
        }
        forall k | k in m' ensures exists i :: 0 <= i < |t[1..]| && t[1..][i].id == k {
          var i :| 0 <= i < |t| && t[i].id == k;
          assert i != 0;
          assert t[1..][i - 1].id == k;
        }
      }
      var keys' := keys - {x.id};
      ScanCount(t[1..], m', q, keys');
      assert x == Row(x.id, m[x.id]);
      if q(x) {
        assert keys == keys' + {x.id};
      } else {
        assert keys == keys';
      }
    }
  }

  /** Adding a loan under a fresh key adds that key to its member's open loans exactly when the loan is open. */
  lemma {:induction false} ActiveAfterInsert(s: Store, s': Store, id: int, loan: Loan, member: int)
    requires id !in s.loans
    requires s'.loans == s.loans[id := loan]
    ensures ActiveLoansOf(s', member)
            == ActiveLoansOf(s, member) + (if loan.member == member && IsOpen(loan) then {id} else {})
    ensures id !in ActiveLoansOf(s, member)
  {
  }
}

=== FILE: dto.dfy ===
/**
  The request bodies the services receive, and the Bean Validation
  constraints the controllers check (`@Valid`) before calling them.
 */
module Dto {
  import opened Common
  import opened StatusConverter

  /** `EmprestimoDTO` without its display-only fields. */
  datatype LoanDto = LoanDto(
    memberId: Option<int>,
    bookId: Option<int>,
    loanDate: Option<Day>,
    expectedDate: Option<Day>,
    returnDate: Option<Day>)

  /** `MultaDTO` without its display-only fields; the amount is in cents. */
  datatype FineDto = FineDto(
    loanId: Option<int>,
    memberId: Option<int>,
    amount: Option<Cents>,
    generatedAt: Option<Instant>)

  /**
    `LivroDTO`, with authors given by identifier. `AutorDTO.id` carries no
    constraint and the author list is not validated, so an entry's
    identifier may be null.
   */
  datatype BookDto = BookDto(
    title: Option<string>,
    year: Option<int>,
    status: Option<Status>,
    authors: Option<seq<Option<int>>>)

  /** The fields of a loan request that carry a constraint. */
  datatype LoanField = MemberIdField | BookIdField | LoanDateField | ExpectedDateField

  /** The fields of a fine request that carry a constraint. */
  datatype FineField = LoanIdField | FineMemberIdField | AmountField

  /** The `@NotNull` constraints of a loan request. */
  predicate LoanDtoComplete(d: LoanDto) {
    d.memberId.Some? && d.bookId.Some? && d.loanDate.Some? && d.expectedDate.Some?
  }

  /** Every constraint of a loan request: the `@NotNull`s, and `@Future` on the expected date. */
  predicate LoanDtoValid(d: LoanDto, today: Day) {
    LoanDtoComplete(d) && d.expectedDate.value > today
  }

  /**
    The fields the validator reports, each checked on its own. `@Future`
    accepts null, so a missing expected date is reported once, by `@NotNull`.
   */
  function LoanViolations(d: LoanDto, today: Day): set<LoanField> {
    (if d.memberId.None? then {MemberIdField} else {})
    + (if d.bookId.None? then {BookIdField} else {})
    + (if d.loanDate.None? then {LoanDateField} else {})
    + (if d.expectedDate.None? || d.expectedDate.value <= today then {ExpectedDateField} else {})
  }

  /** A loan request passes validation exactly when the validator reports no field; the return date is never reported. */
  lemma LoanValidIffNoViolations(d: LoanDto, today: Day, returnDate: Option<Day>)
    ensures LoanDtoValid(d, today) <==> LoanViolations(d, today) == {}
    ensures LoanDtoValid(d, today) == LoanDtoValid(d.(returnDate := returnDate), today)
  {
    if !LoanDtoValid(d, today) {
      if d.memberId.None? { assert MemberIdField in LoanViolations(d, today); }
      else if d.bookId.None? { assert BookIdField in LoanViolations(d, today); }
      else if d.loanDate.None? { assert LoanDateField in LoanViolations(d, today); }
      else { assert ExpectedDateField in LoanViolations(d, today); }
    }
  }

  /** The `@NotNull` constraints of a fine request. */
  predicate FineDtoComplete(d: FineDto) {
    d.loanId.Some? && d.memberId.Some? && d.amount.Some?
  }

  /** `@DecimalMin("0.01")`, inclusive: at least one cent. */
  const MinFineAmount: Cents := 1

  /** Every constraint of a fine request. */
  predicate FineDtoValid(d: FineDto) {
    FineDtoComplete(d) && d.amount.value >= MinFineAmount
  }

  /** The fields the validator reports; `@DecimalMin` accepts null. */
  function FineViolations(d: FineDto): set<FineField> {
    (if d.loanId.None? then {LoanIdField} else {})
    + (if d.memberId.None? then {FineMemberIdField} else {})
    + (if d.amount.None? || d.amount.value < MinFineAmount then {AmountField} else {})
  }

  /** A fine request passes validation exactly when no field is reported; a valid amount is positive; the timestamp is never reported. */
  lemma FineValidIffNoViolations(d: FineDto, generatedAt: Option<Instant>)
    ensures FineDtoValid(d) <==> FineViolations(d) == {}
    ensures FineDtoValid(d) ==> d.amount.value > 0
    ensures FineDtoValid(d) == FineDtoValid(d.(generatedAt := generatedAt))
  {
    if !FineDtoValid(d) {
      if d.loanId.None? { assert LoanIdField in FineViolations(d); }
      else if d.memberId.None? { assert FineMemberIdField in FineViolations(d); }
      else { assert AmountField in FineViolations(d); }
    }
  }
}

=== FILE: entities.dfy ===
/**
  The persistent records: Livro (book), Emprestimo (loan), Membro (member),
  Autor (author) and Multa (fine). Associations are held as identifiers;
  the back-reference sets of the JPA entities (a book's loans, a loan's
  fines, a member's loans and fines) are lookups over the store instead.
 */
module Entities {
  import opened Common
  import opened StatusConverter

  /** A stored row: the record together with its generated identifier. */
  datatype Row<T> = Row(id: int, rec: T)

  datatype Author = Author(name: string)

  datatype Member = Member(name: string, email: string)

  /**
    A book. The title is nullable until the row is written; the status
    field may hold null (the service copies the request's status verbatim).
   */
  datatype Book = Book(
    title: Option<string>,
    year: Option<int>,
    status: Option<Status>,
    authors: set<int>)

  /** The column length of `titulo`. */
  const MaxTitleLength := 200

  /** The title column is NOT NULL with length 200. */
  predicate TitleFits(b: Book) {
    b.title.Some? && |b.title.value| <= MaxTitleLength
  }

  /** `new Livro()`: status DISPONIVEL, no authors, everything else null. */
  const BlankBook: Book := Book(None, None, Some(Disponivel), {})

  /** `Livro.getStatus`: a null status reads as DISPONIVEL. */
  function StatusOf(b: Book): (st: Status)
    ensures b.status.None? ==> st == Disponivel
    ensures b.status == Some(Emprestado) <==> st == Emprestado
  {
    b.status.GetOr(Disponivel)
  }

  /**
    A loan. The loan date and the expected return date are NOT NULL
    columns; the return date is null while the loan is open.
   */
  datatype Loan = Loan(
    member: int,
    book: int,
    loanDate: Day,
    expectedDate: Day,
    returnDate: Option<Day>)

  /** A loan whose return date is null. */
  predicate IsOpen(l: Loan) {
    l.returnDate.None?
  }

  /** A fine: the loan and member it references, its amount and when it was generated. */
  datatype Fine = Fine(loan: int, member: int, amount: Cents, generatedAt: Instant)

  /** What the status column holds after the book is written and read back equals `getStatus`. */
  lemma {:induction false} StoredStatusReadsBack(b: Book)
    ensures FromColumn(Some(ToColumn(b.status))) == StatusOf(b)
  {
    RoundTrip(b.status);
  }

  /** A blank book is available, has no authors and still lacks the title the column demands. */
  lemma BlankBookDefaults()
    ensures StatusOf(BlankBook) == Disponivel
    ensures BlankBook.authors == {}
    ensures !TitleFits(BlankBook)
  {
  }
}

=== FILE: fine_repository.dfy ===
/**
  The fine queries of `MultaRepository`, over a scan of the fine table.
  Amounts are in cents.
 */
module FineRepository {
  import opened Common
  import opened Entities
  import opened Seqs
  import opened Database

  /** `findByMembroId`. */
  function ByMember(t: seq<Row<Fine>>, member: int): (r: seq<Row<Fine>>)
    ensures forall x :: x in r <==> x in t && x.rec.member == member
  {
    Filter(t, (x: Row<Fine>) => x.rec.member == member)
  }

  /** `findByEmprestimoId`. */
  function ByLoan(t: seq<Row<Fine>>, loan: int): (r: seq<Row<Fine>>)
    ensures forall x :: x in r <==> x in t && x.rec.loan == loan
  {
    Filter(t, (x: Row<Fine>) => x.rec.loan == loan)
  }

  /** The total of the amounts, row by row. */
  function SumAmounts(t: seq<Row<Fine>>): int {
    if |t| == 0 then 0 else t[0].rec.amount + SumAmounts(t[1..])
  }

  /** A run of fines of at least one cent each adds up to at least one cent per fine. */
  lemma {:induction false} SumAtLeastCount(t: seq<Row<Fine>>)
    requires forall i :: 0 <= i < |t| ==> t[i].rec.amount >= 1
    ensures SumAmounts(t) >= |t|
  {
    if |t| > 0 {
      SumAtLeastCount(t[1..]);
    }
  }

  /** `sumValorByMembroId`: SUM over no rows is NULL, otherwise the total of the member's fines. */
  function SumByMember(t: seq<Row<Fine>>, member: int): (r: Option<Cents>)
    ensures r.None? <==> forall x :: x in t ==> x.rec.member != member
    ensures r.Some? ==> r.value == SumAmounts(ByMember(t, member))
  {
    var own := ByMember(t, member);
    if |own| == 0 then None
    else
      assert own[0] in t;
      Some(SumAmounts(own))
  }

  /** When every fine holds at least one cent, a member's total is positive, at least one cent per fine. */
  lemma {:induction false} PositiveFinesSumPositive(t: seq<Row<Fine>>, member: int)
    requires forall x :: x in t ==> x.rec.amount >= 1
    ensures SumByMember(t, member).Some? ==> SumByMember(t, member).value >= |ByMember(t, member)| >= 1
  {
    var own := ByMember(t, member);
    assert forall i :: 0 <= i < |own| ==> own[i] in t;
    SumAtLeastCount(own);
  }

  function GeneratedAtOf(x: Row<Fine>): int {
    x.rec.generatedAt
  }

  function AmountOf(x: Row<Fine>): int {
    x.rec.amount
  }

  /** `findByDataGeracaoBetween`: both bounds included, latest first. */
  function GeneratedBetween(t: seq<Row<Fine>>, start: Instant, end: Instant): (r: seq<Row<Fine>>)
    ensures forall x :: multiset(r)[x] == if start <= x.rec.generatedAt <= end then multiset(t)[x] else 0
    ensures forall i, j :: 0 <= i < j < |r| ==> r[i].rec.generatedAt >= r[j].rec.generatedAt
    ensures start > end ==> r == []
  {
    var h := SortDesc(Filter(t, (x: Row<Fine>) => start <= x.rec.generatedAt <= end), GeneratedAtOf);
    assert SortedDesc(h, GeneratedAtOf);
    if start > end then
      assert forall x :: multiset(h)[x] == 0;
      assert multiset(h) == multiset{};
      h
    else h
  }

  /** `findByValorGreaterThan`: amounts strictly above the minimum, largest first. */
  function AmountAbove(t: seq<Row<Fine>>, minimum: Cents): (r: seq<Row<Fine>>)
    ensures forall x :: multiset(r)[x] == if x.rec.amount > minimum then multiset(t)[x] else 0
    ensures forall i, j :: 0 <= i < j < |r| ==> r[i].rec.amount >= r[j].rec.amount
  {
    var h := SortDesc(Filter(t, (x: Row<Fine>) => x.rec.amount > minimum), AmountOf);
    assert SortedDesc(h, AmountOf);
    h
  }

  /** `findAllOrderByValorDesc`: every fine, largest amount first. */
  function AllByAmountDesc(t: seq<Row<Fine>>): (r: seq<Row<Fine>>)
    ensures multiset(r) == multiset(t)
    ensures forall i, j :: 0 <= i < j < |r| ==> r[i].rec.amount >= r[j].rec.amount
  {
    var h := SortDesc(t, AmountOf);
    assert SortedDesc(h, AmountOf);
    h
  }

  /**
    Over a scan of the fine table, `findByEmprestimoId` lists exactly the
    loan's fines, so it is empty exactly when the loan may be deleted.
   */
  lemma {:induction false} ByLoanMatchesStore(t: seq<Row<Fine>>, s: Store, loan: int)
    requires IsScan(t, s.fines)
    ensures (set x | x in ByLoan(t, loan) :: x.id) == FinesOfLoan(s, loan)
    ensures |ByLoan(t, loan)| == 0 <==> FinesOfLoan(s, loan) == {}
  {
    var listed := set x | x in ByLoan(t, loan) :: x.id;
    forall k | k in listed ensures k in FinesOfLoan(s, loan) {
      var x :| x in ByLoan(t, loan) && x.id == k;
      var i :| 0 <= i < |t| && t[i] == x;
    }
    forall k | k in FinesOfLoan(s, loan) ensures k in listed {
      var i :| 0 <= i < |t| && t[i].id == k;
      assert t[i] in t && t[i] in ByLoan(t, loan);
    }
    if |ByLoan(t, loan)| > 0 {
      assert ByLoan(t, loan)[0].id in listed;
    }
  }
}

=== FILE: fine_service.dfy ===
/**
  `MultaService`: recording, correcting and deleting fines by hand. The
  service checks that the loan and the member exist, and nothing more: in
  particular it does not check that the member is the loan's member.
 */
module FineService {
  import opened Common
  import opened Entities
  import opened Dto
  import opened Database

  /**
    `save`: the loan must exist, then the member; the generation time is
    the one given, or now when none is given.
   */
  function Create(s: Store, d: FineDto, now: Instant): (r: Result<Saved<Fine>>)
    requires Valid(s)
    requires FineDtoComplete(d)
    ensures d.loanId.value !in s.loans <==> r == Failure(NotFound(LoanEntity, d.loanId.value))
    ensures d.loanId.value in s.loans && d.memberId.value !in s.members
            <==> r == Failure(NotFound(MemberEntity, d.memberId.value))
    ensures r.Success? <==> d.loanId.value in s.loans && d.memberId.value in s.members
    ensures r.Success? ==>
              && r.value.id !in s.fines
              && r.value.record.loan == d.loanId.value
              && r.value.record.member == d.memberId.value
              && r.value.record.amount == d.amount.value
              && r.value.record.generatedAt == (if d.generatedAt.Some? then d.generatedAt.value else now)
              && r.value.store == s.(fines := s.fines[r.value.id := r.value.record], nextFine := s.nextFine + 1)
              && FinesOfLoan(r.value.store, d.loanId.value) == FinesOfLoan(s, d.loanId.value) + {r.value.id}
              && Valid(r.value.store)
  {
    var loanId := d.loanId.value;
    var memberId := d.memberId.value;
    if loanId !in s.loans then Failure(NotFound(LoanEntity, loanId))
    else if memberId !in s.members then Failure(NotFound(MemberEntity, memberId))
    else
      var id := s.nextFine;
      var fine := Fine(loanId, memberId, d.amount.value, d.generatedAt.GetOr(now));
      var s' := s.(fines := s.fines[id := fine], nextFine := s.nextFine + 1);
      assert FinesOfLoan(s', loanId) == FinesOfLoan(s, loanId) + {id};
      Success(Saved(s', id, fine))
  }

  /**
    The member of a fine need not be the member of its loan: a store in
    which a fine for one member's loan is recorded against another member.
   */
  lemma FineMemberIsNotTiedToLoan()
    ensures var s := Store(map[1 := Member("Ana", "ana@x"), 2 := Member("Bia", "bia@x")], map[],
                           map[], map[7 := Loan(1, 5, 0, 10, None)], map[], 6, 8, 1);
            var r := Create(s, FineDto(Some(7), Some(2), Some(500), None), 0);
            r.Success? && r.value.record.member != s.loans[7].member
  {
  }

  /** `update`: only the amount changes; loan, member and generation time stay. */
  function Update(s: Store, id: int, d: FineDto): (r: Result<Saved<Fine>>)
    requires d.amount.Some?
    ensures id !in s.fines <==> r == Failure(NotFound(FineEntity, id))
    ensures r.Success? <==> id in s.fines
    ensures r.Success? ==>
              && r.value.id == id
              && r.value.record.amount == d.amount.value
              && r.value.record.loan == s.fines[id].loan
              && r.value.record.member == s.fines[id].member
              && r.value.record.generatedAt == s.fines[id].generatedAt
              && r.value.store == s.(fines := s.fines[id := r.value.record])
    ensures r.Success? && Valid(s) ==> Valid(r.value.store)
  {
    if id !in s.fines then Failure(NotFound(FineEntity, id))
    else
      var fine := s.fines[id].(amount := d.amount.value);
      Success(Saved(s.(fines := s.fines[id := fine]), id, fine))
  }

  /** `delete`: only that fine goes. */
  function Delete(s: Store, id: int): (r: Result<Store>)
    ensures id !in s.fines <==> r == Failure(NotFound(FineEntity, id))
    ensures r.Success? <==> id in s.fines
    ensures r.Success? ==>
              && r.value.fines == s.fines - {id}
              && |r.value.fines| == |s.fines| - 1
              && r.value == s.(fines := r.value.fines)
    ensures r.Success? && Valid(s) ==> Valid(r.value)
  {
    if id !in s.fines then Failure(NotFound(FineEntity, id))
    else Success(s.(fines := s.fines - {id}))
  }

  /** Deleting the last fine of a loan lifts the guard that kept the loan from being deleted. */
  lemma {:induction false} DeletingFinesUnblocksLoan(s: Store, id: int)
    requires id in s.fines
    requires FinesOfLoan(s, s.fines[id].loan) == {id}
    ensures FinesOfLoan(Delete(s, id).value, s.fines[id].loan) == {}
  {
    var s' := Delete(s, id).value;
    var loan := s.fines[id].loan;
    forall k | k in s'.fines ensures s'.fines[k].loan != loan {
      assert k in s.fines && k != id;
      assert k !in FinesOfLoan(s, loan);
    }
  }

  /** A fine just recorded can be deleted again, and deleting it restores the fine table. */
  lemma {:induction false} CreateThenDeleteRestores(s: Store, d: FineDto, now: Instant)
    requires Valid(s)
    requires FineDtoComplete(d)
    requires Create(s, d, now).Success?
    ensures Delete(Create(s, d, now).value.store, Create(s, d, now).value.id).Success?
    ensures Delete(Create(s, d, now).value.store, Create(s, d, now).value.id).value.fines == s.fines
  {
    var saved := Create(s, d, now).value;
    assert saved.store.fines - {saved.id} == s.fines;
  }

  /** Correcting an amount twice with the same request is the same as correcting it once. */
  lemma {:induction false} UpdateIdempotent(s: Store, id: int, d: FineDto)
    requires d.amount.Some?
    requires Update(s, id, d).Success?
    ensures Update(Update(s, id, d).value.store, id, d) == Update(s, id, d)
  {
    var r := Update(s, id, d).value;
    assert r.store.fines[id := r.record] == r.store.fines;
  }
}

=== FILE: loan_repository.dfy ===
/**
  The loan queries of `EmprestimoRepository`, each over a scan of the loan
  table. "Active" means the return date is null.
 */
module LoanRepository {
  import opened Common
  import opened Entities
  import opened Seqs
  import opened Database

  /** `findByMembroId`. */
  function ByMember(t: seq<Row<Loan>>, member: int): (r: seq<Row<Loan>>)
    ensures forall x :: x in r <==> x in t && x.rec.member == member
  {
    Filter(t, (x: Row<Loan>) => x.rec.member == member)
  }

  /** `findByLivroId`. */
  function ByBook(t: seq<Row<Loan>>, book: int): (r: seq<Row<Loan>>)
    ensures forall x :: x in r <==> x in t && x.rec.book == book
  {
    Filter(t, (x: Row<Loan>) => x.rec.book == book)
  }

  /** `findEmprestimosAtivos`: the loans with a null return date. */
  function Active(t: seq<Row<Loan>>): (r: seq<Row<Loan>>)
    ensures forall x :: x in r <==> x in t && x.rec.returnDate.None?
  {
    Filter(t, (x: Row<Loan>) => IsOpen(x.rec))
  }

  /** `findEmprestimosAtrasados(hoje)`: open loans expected back strictly before today. */
  function Overdue(t: seq<Row<Loan>>, today: Day): (r: seq<Row<Loan>>)
    ensures forall x :: x in r <==> x in t && x.rec.returnDate.None? && x.rec.expectedDate < today
  {
    Filter(t, (x: Row<Loan>) => IsOpen(x.rec) && x.rec.expectedDate < today)
  }

  /**
    `findByDataDevolucaoBetween`: loans returned on a day between the two
    bounds, both included. A null return date compares as unknown in SQL,
    so no open loan is ever selected.
   */
  function ReturnedBetween(t: seq<Row<Loan>>, start: Day, end: Day): (r: seq<Row<Loan>>)
    ensures forall x :: x in r <==> x in t && x.rec.returnDate.Some? && start <= x.rec.returnDate.value <= end
    ensures start > end ==> r == []
  {
    Filter(t, (x: Row<Loan>) => x.rec.returnDate.Some? && start <= x.rec.returnDate.value <= end)
  }

  /** `findEmprestimosAtivosByMembro`. */
  function ActiveByMember(t: seq<Row<Loan>>, member: int): (r: seq<Row<Loan>>)
    ensures forall x :: x in r <==> x in t && x.rec.member == member && x.rec.returnDate.None?
  {
    Filter(t, (x: Row<Loan>) => x.rec.member == member && IsOpen(x.rec))
  }

  /**
    `countEmprestimosAtivosByMembro`: COUNT over the same condition, so it
    is the number of loans `findEmprestimosAtivosByMembro` returns.
   */
  function CountActiveByMember(t: seq<Row<Loan>>, member: int): (r: nat)
    ensures r == |ActiveByMember(t, member)|
    ensures r <= |t|
  {
    CountIsFilterLength(t, (x: Row<Loan>) => x.rec.member == member && IsOpen(x.rec));
    Count(t, (x: Row<Loan>) => x.rec.member == member && IsOpen(x.rec))
  }

  /** The loan date, the key of a book's history. */
  function LoanDateOf(x: Row<Loan>): int {
    x.rec.loanDate
  }

  /** `findEmprestimosHistoricoByLivro`: the book's loans, most recent loan date first. */
  function HistoryByBook(t: seq<Row<Loan>>, book: int): (r: seq<Row<Loan>>)
    ensures multiset(r) == multiset(ByBook(t, book))
    ensures forall i, j :: 0 <= i < j < |r| ==> r[i].rec.loanDate >= r[j].rec.loanDate
  {
    var h := SortDesc(ByBook(t, book), LoanDateOf);
    assert SortedDesc(h, LoanDateOf);
    h
  }

  /** Overdue loans are the active loans whose expected date has passed; in particular every overdue loan is active. */
  lemma {:induction false} OverdueIsFilteredActive(t: seq<Row<Loan>>, today: Day)
    ensures Overdue(t, today) == Filter(Active(t), (x: Row<Loan>) => x.rec.expectedDate < today)
    ensures |Overdue(t, today)| <= |Active(t)|
  {
    FilterFilter(t, (x: Row<Loan>) => IsOpen(x.rec), (x: Row<Loan>) => x.rec.expectedDate < today,
                 (x: Row<Loan>) => IsOpen(x.rec) && x.rec.expectedDate < today);
  }

  /** The active loans of a member are the member's loans filtered to the active ones, and the active loans filtered to the member's. */
  lemma {:induction false} ActiveByMemberIsIntersection(t: seq<Row<Loan>>, member: int)
    ensures ActiveByMember(t, member) == Active(ByMember(t, member))
    ensures ActiveByMember(t, member) == ByMember(Active(t), member)
  {
    var own := (x: Row<Loan>) => x.rec.member == member;
    var open := (x: Row<Loan>) => IsOpen(x.rec);
    var both := (x: Row<Loan>) => x.rec.member == member && IsOpen(x.rec);
    FilterFilter(t, own, open, both);
    FilterFilter(t, open, own, (x: Row<Loan>) => IsOpen(x.rec) && x.rec.member == member);
    FilterAgrees(t, (x: Row<Loan>) => IsOpen(x.rec) && x.rec.member == member, both);
  }

  /**
    Counted over a scan of the loan table, the repository's active count is
    the store's `ActiveCount`, which the loan limit is checked against.
   */
  lemma {:induction false} CountMatchesStore(t: seq<Row<Loan>>, s: Store, member: int)
    requires IsScan(t, s.loans)
    ensures CountActiveByMember(t, member) == ActiveCount(s, member)
  {
    ScanCount(t, s.loans, (x: Row<Loan>) => x.rec.member == member && IsOpen(x.rec), ActiveLoansOf(s, member));
  }

  /** No loan is both returned within a range and active: the two queries are disjoint. */
  lemma {:induction false} ReturnedIsNotActive(t: seq<Row<Loan>>, start: Day, end: Day)
    ensures forall x :: !(x in ReturnedBetween(t, start, end) && x in Active(t))
  {
  }
}

=== FILE: loan_service.dfy ===
/**
  `EmprestimoService`: creating, returning, correcting and deleting loans.
  Each operation runs as one transaction, so a failure leaves the store as
  it was; here a failure simply returns no store.

  The book's status is read, never written: the comments of the source
  attribute the status change and the fine generation to database
  triggers, which are not part of this module (see `Availability`).
 */
module LoanService {
  import opened Common
  import opened StatusConverter
  import opened Entities
  import opened Dto
  import opened Database

  /** The limit on open loans per member. */
  const MaxActiveLoans := 3

  /** `convertToEntity`: the three dates, copied verbatim, on the resolved member and book. */
  function NewLoan(d: LoanDto): Loan
    requires LoanDtoComplete(d)
  {
    Loan(d.memberId.value, d.bookId.value, d.loanDate.value, d.expectedDate.value, d.returnDate)
  }

  /**
    `save`: the member must exist, then the book; the book's status must
    not be EMPRESTADO; then the member must hold fewer than 3 open loans.
   */
  function Create(s: Store, d: LoanDto): (r: Result<Saved<Loan>>)
    requires Valid(s)
    requires LoanDtoComplete(d)
    ensures d.memberId.value !in s.members <==> r == Failure(NotFound(MemberEntity, d.memberId.value))
    ensures d.memberId.value in s.members && d.bookId.value !in s.books
            <==> r == Failure(NotFound(BookEntity, d.bookId.value))
    ensures d.memberId.value in s.members && d.bookId.value in s.books
            && StatusOf(s.books[d.bookId.value]) == Emprestado
            <==> r == Failure(InvalidState(BookOnLoan))
    ensures d.memberId.value in s.members && d.bookId.value in s.books
            && StatusOf(s.books[d.bookId.value]) != Emprestado
            && ActiveCount(s, d.memberId.value) >= MaxActiveLoans
            <==> r == Failure(InvalidState(LoanLimitReached))
    ensures r.Success? <==>
              && d.memberId.value in s.members && d.bookId.value in s.books
              && StatusOf(s.books[d.bookId.value]) != Emprestado
              && ActiveCount(s, d.memberId.value) < MaxActiveLoans
    ensures r.Success? ==>
              && r.value.id !in s.loans
              && r.value.record.member == d.memberId.value
              && r.value.record.book == d.bookId.value
              && r.value.record.loanDate == d.loanDate.value
              && r.value.record.expectedDate == d.expectedDate.value
              && r.value.record.returnDate == d.returnDate
              && r.value.store == s.(loans := s.loans[r.value.id := r.value.record], nextLoan := s.nextLoan + 1)
              && |r.value.store.loans| == |s.loans| + 1
              && Valid(r.value.store)
  {
    var memberId := d.memberId.value;
    var bookId := d.bookId.value;
    if memberId !in s.members then Failure(NotFound(MemberEntity, memberId))
    else if bookId !in s.books then Failure(NotFound(BookEntity, bookId))
    else if StatusOf(s.books[bookId]) == Emprestado then Failure(InvalidState(BookOnLoan))
    else if ActiveCount(s, memberId) >= MaxActiveLoans then Failure(InvalidState(LoanLimitReached))
    else
      var id := s.nextLoan;
      var loan := NewLoan(d);
      var s' := s.(loans := s.loans[id := loan], nextLoan := s.nextLoan + 1);
      Success(Saved(s', id, loan))
  }

  /**
    After a successful create the member holds at most 3 open loans: one
    more than before if the new loan is open, as many as before otherwise.
    No other member's count moves.
   */
  lemma {:induction false} CreateRespectsLimit(s: Store, d: LoanDto, other: int)
    requires Valid(s)
    requires LoanDtoComplete(d)
    requires Create(s, d).Success?
    ensures ActiveCount(Create(s, d).value.store, d.memberId.value)
            == ActiveCount(s, d.memberId.value) + (if d.returnDate.None? then 1 else 0)
    ensures ActiveCount(Create(s, d).value.store, d.memberId.value) <= MaxActiveLoans
    ensures other != d.memberId.value ==> ActiveCount(Create(s, d).value.store, other) == ActiveCount(s, other)
  {
    var saved := Create(s, d).value;
    ActiveAfterInsert(s, saved.store, saved.id, saved.record, d.memberId.value);
    ActiveAfterInsert(s, saved.store, saved.id, saved.record, other);
  }

  /** A loan just created has no fines attached. */
  lemma {:induction false} CreatedLoanHasNoFines(s: Store, d: LoanDto)
    requires Valid(s)
    requires LoanDtoComplete(d)
    requires Create(s, d).Success?
    ensures FinesOfLoan(Create(s, d).value.store, Create(s, d).value.id) == {}
  {
    var saved := Create(s, d).value;
    forall k | k in saved.store.fines ensures saved.store.fines[k].loan != saved.id {
      assert s.fines[k].loan < s.nextLoan;
    }
  }

  /**
    `registrarDevolucao`: the loan must exist and must not be returned yet;
    the return date is the given one, or today when none is given.
   */
  function Return(s: Store, id: int, date: Option<Day>, today: Day): (r: Result<Saved<Loan>>)
    ensures id !in s.loans <==> r == Failure(NotFound(LoanEntity, id))
    ensures id in s.loans && s.loans[id].returnDate.Some? <==> r == Failure(InvalidState(AlreadyReturned))
    ensures r.Success? <==> id in s.loans && s.loans[id].returnDate.None?
    ensures r.Success? ==>
              && r.value.id == id
              && r.value.record.returnDate == Some(if date.Some? then date.value else today)
              && r.value.record.member == s.loans[id].member
              && r.value.record.book == s.loans[id].book
              && r.value.record.loanDate == s.loans[id].loanDate
              && r.value.record.expectedDate == s.loans[id].expectedDate
              && r.value.store == s.(loans := s.loans[id := r.value.record])
    ensures r.Success? && Valid(s) ==> Valid(r.value.store)
  {
    if id !in s.loans then Failure(NotFound(LoanEntity, id))
    else if s.loans[id].returnDate.Some? then Failure(InvalidState(AlreadyReturned))
    else
      var loan := s.loans[id].(returnDate := Some(date.GetOr(today)));
      Success(Saved(s.(loans := s.loans[id := loan]), id, loan))
  }

  /** Returning is one-way: once a return succeeds, returning the same loan again fails, whatever the date. */
  lemma {:induction false} SecondReturnFails(s: Store, id: int, date: Option<Day>, today: Day, date2: Option<Day>, today2: Day)
    requires Return(s, id, date, today).Success?
    ensures Return(Return(s, id, date, today).value.store, id, date2, today2) == Failure(InvalidState(AlreadyReturned))
  {
    var s' := Return(s, id, date, today).value.store;
    assert id in s'.loans && s'.loans[id].returnDate.Some?;
  }

  /**
    `update`: only the three dates are rewritten, the return date included,
    so a returned loan can be made open again. Member and book never change.
   */
  function Update(s: Store, id: int, d: LoanDto): (r: Result<Saved<Loan>>)
    requires d.loanDate.Some? && d.expectedDate.Some?
    ensures id !in s.loans <==> r == Failure(NotFound(LoanEntity, id))
    ensures r.Success? <==> id in s.loans
    ensures r.Success? ==>
              && r.value.id == id
              && r.value.record.member == s.loans[id].member
              && r.value.record.book == s.loans[id].book
              && r.value.record.loanDate == d.loanDate.value
              && r.value.record.expectedDate == d.expectedDate.value
              && r.value.record.returnDate == d.returnDate
              && r.value.store == s.(loans := s.loans[id := r.value.record])
    ensures r.Success? && Valid(s) ==> Valid(r.value.store)
  {
    if id !in s.loans then Failure(NotFound(LoanEntity, id))
    else
      var loan := s.loans[id].(loanDate := d.loanDate.value, expectedDate := d.expectedDate.value,
                               returnDate := d.returnDate);
      Success(Saved(s.(loans := s.loans[id := loan]), id, loan))
  }

  /** `delete`: refused while any fine references the loan; otherwise only that loan goes. */
  function Delete(s: Store, id: int): (r: Result<Store>)
    ensures id !in s.loans <==> r == Failure(NotFound(LoanEntity, id))
    ensures id in s.loans && FinesOfLoan(s, id) != {} <==> r == Failure(InvalidState(LoanHasFines))
    ensures r.Success? <==> id in s.loans && FinesOfLoan(s, id) == {}
    ensures r.Success? ==>
              && id in s.loans
              && r.value.loans == s.loans - {id}
              && |r.value.loans| == |s.loans| - 1
              && r.value == s.(loans := r.value.loans)
    ensures r.Success? && Valid(s) ==> Valid(r.value)
  {
    if id !in s.loans then Failure(NotFound(LoanEntity, id))
    else if FinesOfLoan(s, id) != {} then Failure(InvalidState(LoanHasFines))
    else Success(s.(loans := s.loans - {id}))
  }

  /** A loan just created can be deleted again, and deleting it restores the loan table. */
  lemma {:induction false} CreateThenDeleteRestores(s: Store, d: LoanDto)
    requires Valid(s)
    requires LoanDtoComplete(d)
    requires Create(s, d).Success?
    ensures Delete(Create(s, d).value.store, Create(s, d).value.id).Success?
    ensures Delete(Create(s, d).value.store, Create(s, d).value.id).value.loans == s.loans
  {
    var saved := Create(s, d).value;
    CreatedLoanHasNoFines(s, d);
    assert saved.store.loans - {saved.id} == s.loans;
  }

  /**
    `update` can undo `registrarDevolucao`: given the loan's own dates and
    no return date, it puts back the open loan that was returned.
   */
  lemma {:induction false} UpdateUndoesReturn(s: Store, id: int, date: Option<Day>, today: Day)
    requires Return(s, id, date, today).Success?
    ensures var l := s.loans[id];
            var r := Update(Return(s, id, date, today).value.store, id, LoanDto(Some(l.member), Some(l.book), Some(l.loanDate), Some(l.expectedDate), None));
            r.Success? && r.value.store.loans == s.loans && IsOpen(r.value.record)
  {
    var l := s.loans[id];
    var s' := Return(s, id, date, today).value.store;
    var r := Update(s', id, LoanDto(Some(l.member), Some(l.book), Some(l.loanDate), Some(l.expectedDate), None));
    assert r.value.record == l;
    assert s.loans[id := l] == s.loans;
  }

  /** Updating twice with the same request is the same as updating once. */
  lemma {:induction false} UpdateIdempotent(s: Store, id: int, d: LoanDto)
    requires d.loanDate.Some? && d.expectedDate.Some?
    requires Update(s, id, d).Success?
    ensures Update(Update(s, id, d).value.store, id, d) == Update(s, id, d)
  {
    var r := Update(s, id, d).value;
    assert r.store.loans[id := r.record] == r.store.loans;
  }
}

=== FILE: member_repository.dfy ===
/**
  The member queries of `MembroRepository`, over a scan of the member
  table and, where a query joins them, scans of the loan and fine tables.
 */
module MemberRepository {
  import opened Common
  import opened Entities
  import opened Seqs
  import opened Text
  import LoanRepository
  import FineRepository

  /** `findByNomeContainingIgnoreCase`. */
  function ByName(t: seq<Row<Member>>, q: string): (r: seq<Row<Member>>)
    ensures forall x :: x in r <==> x in t && ContainsIgnoringCase(x.rec.name, q)
  {
    Filter(t, (x: Row<Member>) => ContainsIgnoringCase(x.rec.name, q))
  }

  /** `findByEmail`: the member with exactly that email, or nothing. */
  function ByEmail(t: seq<Row<Member>>, email: string): (r: Option<Row<Member>>)
    ensures r.Some? ==> r.value in t && r.value.rec.email == email
    ensures r.None? <==> forall x :: x in t ==> x.rec.email != email
  {
    if |t| == 0 then None
    else if t[0].rec.email == email then Some(t[0])
    else ByEmail(t[1..], email)
  }

  /** Emails are unique in the table (the column is UNIQUE). */
  predicate UniqueEmails(t: seq<Row<Member>>) {
    forall i, j :: 0 <= i < j < |t| ==> t[i].rec.email != t[j].rec.email
  }

  /** With unique emails, looking up a member's email finds that member. */
  lemma {:induction false} ByEmailFindsOwner(t: seq<Row<Member>>, i: int)
    requires UniqueEmails(t)
    requires 0 <= i < |t|
    ensures ByEmail(t, t[i].rec.email) == Some(t[i])
  {
    if i > 0 {
      assert t[0].rec.email != t[i].rec.email;
      assert t[1..][i - 1] == t[i];
      ByEmailFindsOwner(t[1..], i - 1);
    }
  }

  /** The member's loans, counted: SIZE of / COUNT over `m.emprestimos`. */
  function LoanCount(loans: seq<Row<Loan>>, member: int): nat {
    Count(loans, (l: Row<Loan>) => l.rec.member == member)
  }

  /** `findMembrosComMaisEmprestimos`: members with at least one loan, by loan count, largest first. */
  function MostLoans(t: seq<Row<Member>>, loans: seq<Row<Loan>>): (r: seq<Row<Member>>)
    ensures forall x :: multiset(r)[x] == if LoanCount(loans, x.id) >= 1 then multiset(t)[x] else 0
    ensures forall x :: x in r ==> LoanCount(loans, x.id) >= 1
    ensures forall i, j :: 0 <= i < j < |r| ==> LoanCount(loans, r[i].id) >= LoanCount(loans, r[j].id)
  {
    var key := (x: Row<Member>) => LoanCount(loans, x.id);
    var h := SortDesc(Filter(t, (x: Row<Member>) => LoanCount(loans, x.id) >= 1), key);
    assert SortedDesc(h, key);
    h
  }

  /** How many fines reference the member. */
  function FineCount(fines: seq<Row<Fine>>, member: int): nat {
    |FineRepository.ByMember(fines, member)|
  }

  /** SUM of the member's fine amounts. */
  function FineTotal(fines: seq<Row<Fine>>, member: int): int {
    FineRepository.SumAmounts(FineRepository.ByMember(fines, member))
  }

  /** `findMembrosComMaisMultas`: members with at least one fine, by fine total, largest first. */
  function MostFines(t: seq<Row<Member>>, fines: seq<Row<Fine>>): (r: seq<Row<Member>>)
    ensures forall x :: multiset(r)[x] == if FineCount(fines, x.id) >= 1 then multiset(t)[x] else 0
    ensures forall x :: x in r ==> FineCount(fines, x.id) >= 1
    ensures forall i, j :: 0 <= i < j < |r| ==> FineTotal(fines, r[i].id) >= FineTotal(fines, r[j].id)
  {
    var key := (x: Row<Member>) => FineTotal(fines, x.id);
    var h := SortDesc(Filter(t, (x: Row<Member>) => FineCount(fines, x.id) >= 1), key);
    assert SortedDesc(h, key);
    h
  }

  /** `findMembrosComEmprestimosCompletos`: at least one loan and none still open. */
  function Completed(t: seq<Row<Member>>, loans: seq<Row<Loan>>): (r: seq<Row<Member>>)
    ensures forall x :: x in r <==> x in t && LoanCount(loans, x.id) >= 1 && LoanRepository.CountActiveByMember(loans, x.id) == 0
  {
    Filter(t, (x: Row<Member>) => LoanCount(loans, x.id) > 0 && LoanRepository.CountActiveByMember(loans, x.id) == 0)
  }

  /** `findMembrosComEmprestimosAtivos(quantidade)`: at least that many open loans. */
  function WithActiveLoans(t: seq<Row<Member>>, loans: seq<Row<Loan>>, quantity: int): (r: seq<Row<Member>>)
    ensures forall x :: x in r <==> x in t && LoanRepository.CountActiveByMember(loans, x.id) >= quantity
  {
    Filter(t, (x: Row<Member>) => LoanRepository.CountActiveByMember(loans, x.id) >= quantity)
  }

  /**
    Raising the threshold only drops members: the result for the larger
    threshold is the result for the smaller one, filtered again.
   */
  lemma {:induction false} WithActiveLoansMonotone(t: seq<Row<Member>>, loans: seq<Row<Loan>>, q1: int, q2: int)
    requires q1 <= q2
    ensures WithActiveLoans(t, loans, q2) == Filter(WithActiveLoans(t, loans, q1), (x: Row<Member>) => LoanRepository.CountActiveByMember(loans, x.id) >= q2)
    ensures forall x :: x in WithActiveLoans(t, loans, q2) ==> x in WithActiveLoans(t, loans, q1)
  {
    var p1 := (x: Row<Member>) => LoanRepository.CountActiveByMember(loans, x.id) >= q1;
    var p2 := (x: Row<Member>) => LoanRepository.CountActiveByMember(loans, x.id) >= q2;
    FilterFilter(t, p1, p2, (x: Row<Member>) => LoanRepository.CountActiveByMember(loans, x.id) >= q1 && LoanRepository.CountActiveByMember(loans, x.id) >= q2);
    FilterAgrees(t, (x: Row<Member>) => LoanRepository.CountActiveByMember(loans, x.id) >= q1 && LoanRepository.CountActiveByMember(loans, x.id) >= q2, p2);
  }

  /** No member both has completed all loans and holds an open one. */
  lemma CompletedHoldsNoActiveLoan(t: seq<Row<Member>>, loans: seq<Row<Loan>>)
    ensures forall x :: !(x in Completed(t, loans) && x in WithActiveLoans(t, loans, 1))
  {
  }

  /** Searching names with the empty string lists every member, in table order. */
  lemma {:induction false} EmptyNameListsAll(t: seq<Row<Member>>)
    ensures ByName(t, "") == t
  {
    forall i | 0 <= i < |t| ensures ContainsIgnoringCase(t[i].rec.name, "") {
      MatchesEmptyAndItself(t[i].rec.name);
    }
    FilterAll(t, (x: Row<Member>) => ContainsIgnoringCase(x.rec.name, ""));
  }
}

=== FILE: seqs.dfy ===
/**
  Sequence operations the repository queries are built from: a WHERE clause
  is a `Filter`, a COUNT is a `Count`, an ORDER BY ... DESC is `SortDesc`.
 */
module Seqs {

  /** The elements of `s` that satisfy `p`, in their original order. */
  function Filter<T(!new)>(s: seq<T>, p: T -> bool): (r: seq<T>)
    ensures |r| <= |s|
    ensures forall x :: x in r <==> x in s && p(x)
    ensures forall x :: multiset(r)[x] == if p(x) then multiset(s)[x] else 0
  {
    if |s| == 0 then []
    else
      assert s == [s[0]] + s[1..];
      if p(s[0]) then [s[0]] + Filter(s[1..], p) else Filter(s[1..], p)
  }

  /** The number of elements of `s` that satisfy `p`. */
  function Count<T>(s: seq<T>, p: T -> bool): nat {
    if |s| == 0 then 0
    else (if p(s[0]) then 1 else 0) + Count(s[1..], p)
  }

  /** Counting is the length of the filtered sequence. */
  lemma {:induction false} CountIsFilterLength<T(!new)>(s: seq<T>, p: T -> bool)
    ensures Count(s, p) == |Filter(s, p)|
  {
    if |s| > 0 {
      CountIsFilterLength(s[1..], p);
    }
  }

  /** Filtering twice is filtering once by the conjunction. */
  lemma {:induction false} FilterFilter<T(!new)>(s: seq<T>, p: T -> bool, q: T -> bool, pq: T -> bool)
    requires forall x :: pq(x) == (p(x) && q(x))
    ensures Filter(Filter(s, p), q) == Filter(s, pq)
  {
    if |s| > 0 {
      FilterFilter(s[1..], p, q, pq);
      if p(s[0]) {
        assert Filter(s, p) == [s[0]] + Filter(s[1..], p);
        assert Filter(s, p)[1..] == Filter(s[1..], p);
      }
    }
  }

  /** Filters by predicates that agree on every element are equal. */
  lemma {:induction false} FilterAgrees<T(!new)>(s: seq<T>, p: T -> bool, q: T -> bool)
    requires forall i :: 0 <= i < |s| ==> p(s[i]) == q(s[i])
    ensures Filter(s, p) == Filter(s, q)
  {
    if |s| > 0 {
      FilterAgrees(s[1..], p, q);
    }
  }

  /** Keys never increase from left to right. */
  predicate SortedDesc<T>(s: seq<T>, key: T -> int) {
    forall i, j :: 0 <= i < j < |s| ==> key(s[i]) >= key(s[j])
  }

  /** Places `x` before the first element whose key is not above its own. */
  function Insert<T>(x: T, s: seq<T>, key: T -> int): (r: seq<T>)
    requires SortedDesc(s, key)
    ensures multiset(r) == multiset(s) + multiset{x}
    ensures forall y :: y in r ==> y == x || y in s
    ensures SortedDesc(r, key)
  {
    if |s| == 0 then [x]
    else if key(x) >= key(s[0]) then
      assert forall j :: 0 <= j < |s| ==> key(x) >= key(s[j]);
      [x] + s
    else
      assert s == [s[0]] + s[1..];
      var rest := Insert(x, s[1..], key);
      assert forall y :: y in rest ==> key(y) <= key(s[0]);
      var r := [s[0]] + rest;
      assert forall j :: 0 < j < |r| ==> r[j] == rest[j - 1];
      r
  }

  /** An ordering of `s` by `key`, largest first; ties are left in no particular order. */
  function SortDesc<T>(s: seq<T>, key: T -> int): (r: seq<T>)
    ensures multiset(r) == multiset(s)
    ensures SortedDesc(r, key)
  {
    if |s| == 0 then []
    else
      assert s == [s[0]] + s[1..];
      Insert(s[0], SortDesc(s[1..], key), key)
  }

  /** A filter whose predicate holds on every element keeps the whole sequence. */
  lemma {:induction false} FilterAll<T(!new)>(s: seq<T>, p: T -> bool)
    requires forall i :: 0 <= i < |s| ==> p(s[i])
    ensures Filter(s, p) == s
  {
    if |s| > 0 {
      FilterAll(s[1..], p);
      assert s == [s[0]] + s[1..];
    }
  }
}

=== FILE: status_converter.dfy ===
/**
  The book status enum and the JPA attribute converter that stores it as a
  string column. Both directions are total: nothing the column can hold
  makes reading it fail.
 */
module StatusConverter {
  import opened Common

  /** `StatusLivro`, in declaration order DISPONIVEL, EMPRESTADO. */
  datatype Status = Disponivel | Emprestado

  /** All constants, in the order `StatusLivro.values()` lists them. */
  const AllStatuses: seq<Status> := [Disponivel, Emprestado]

  /** The constant's `name()`. */
  function Name(st: Status): string {
    match st
    case Disponivel => "DISPONIVEL"
    case Emprestado => "EMPRESTADO"
  }

  /**
    The upper-case ASCII letter that `c` matches under Java's
    `equalsIgnoreCase`, or `c` itself when it matches none. Besides the
    ASCII letters, four characters fold onto one: dotless i and dotted
    capital I onto I, long s onto S, the Kelvin sign onto K.
   */
  function FoldChar(c: char): char {
    if 'a' <= c <= 'z' then (c as int - 32) as char
    else if c == '\U{0131}' || c == '\U{0130}' then 'I'
    else if c == '\U{017F}' then 'S'
    else if c == '\U{212A}' then 'K'
    else c
  }

  /** True when `name` is made of upper-case ASCII letters only. */
  predicate IsUpperAscii(name: string) {
    forall i :: 0 <= i < |name| ==> 'A' <= name[i] <= 'Z'
  }

  /**
    `name.equalsIgnoreCase(s)` for an upper-case ASCII `name`: same length,
    and every character of `s` folds onto the character of `name` at the
    same position.
   */
  predicate EqualsIgnoreCase(name: string, s: string)
    requires IsUpperAscii(name)
  {
    |name| == |s| && forall i :: 0 <= i < |s| ==> FoldChar(s[i]) == name[i]
  }

  /** `Enum.valueOf`: the constant whose name is exactly `s`, if any. */
  function ValueOf(s: string): (r: Option<Status>)
    ensures r.Some? <==> exists st :: Name(st) == s
    ensures r.Some? ==> Name(r.value) == s
  {
    if s == Name(Disponivel) then Some(Disponivel)
    else if s == Name(Emprestado) then Some(Emprestado)
    else None
  }

  /**
    The loop over `values()`: the first constant whose name matches `s`
    ignoring case, or DISPONIVEL when none does.
   */
  function FirstIgnoringCase(candidates: seq<Status>, s: string): (r: Status)
    ensures (exists i :: 0 <= i < |candidates| && EqualsIgnoreCase(Name(candidates[i]), s))
            ==> EqualsIgnoreCase(Name(r), s)
    ensures (forall i :: 0 <= i < |candidates| ==> !EqualsIgnoreCase(Name(candidates[i]), s))
            ==> r == Disponivel
  {
    if |candidates| == 0 then Disponivel
    else if EqualsIgnoreCase(Name(candidates[0]), s) then candidates[0]
    else FirstIgnoringCase(candidates[1..], s)
  }

  /** `convertToDatabaseColumn`: a null status is written as "DISPONIVEL". */
  function ToColumn(st: Option<Status>): (r: string)
    ensures st.None? ==> r == "DISPONIVEL"
    ensures st.Some? ==> r == Name(st.value)
  {
    match st
    case None => "DISPONIVEL"
    case Some(v) => Name(v)
  }

  /**
    `convertToEntityAttribute`: null and "" read as DISPONIVEL; an exact
    constant name reads as that constant; failing that, a case-insensitive
    match; anything else reads as DISPONIVEL.
   */
  function FromColumn(column: Option<string>): (r: Status)
    ensures column.None? || column == Some("") ==> r == Disponivel
    ensures forall st :: column == Some(Name(st)) ==> r == st
    ensures forall st :: column.Some? && EqualsIgnoreCase(Name(st), column.value) ==> r == st
    ensures column.Some? && (forall st :: !EqualsIgnoreCase(Name(st), column.value)) ==> r == Disponivel
  {
    NamesDoNotCollide();
    match column
    case None => Disponivel
    case Some(s) =>
      if |s| == 0 then Disponivel
      else match ValueOf(s)
        case Some(st) => st
        case None =>
          assert forall st :: EqualsIgnoreCase(Name(st), s) ==> st in AllStatuses;
          FirstIgnoringCase(AllStatuses, s)
  }

  /** Every name is upper-case ASCII, and no string matches two names. */
  lemma NamesDoNotCollide()
    ensures forall st :: IsUpperAscii(Name(st))
    ensures forall st1, st2, s :: EqualsIgnoreCase(Name(st1), s) && EqualsIgnoreCase(Name(st2), s) ==> st1 == st2
    ensures forall st, s :: Name(st) == s ==> EqualsIgnoreCase(Name(st), s)
  {
    forall st1, st2, s | EqualsIgnoreCase(Name(st1), s) && EqualsIgnoreCase(Name(st2), s)
      ensures st1 == st2
    {
      // The names already differ in their first letter.
      assert FoldChar(s[0]) == Name(st1)[0] && FoldChar(s[0]) == Name(st2)[0];
    }
  }

  /** Writing a status and reading the column back gives the status again; null comes back as DISPONIVEL. */
  lemma {:induction false} RoundTrip(st: Option<Status>)
    ensures st.Some? ==> FromColumn(Some(ToColumn(st))) == st.value
    ensures st.None? ==> FromColumn(Some(ToColumn(st))) == Disponivel
  {
    match st
    case None =>
      assert ToColumn(st) == Name(Disponivel);
    case Some(v) =>
      assert ToColumn(st) == Name(v);
  }

  /** Lower-case spellings are accepted: "emprestado" reads as EMPRESTADO. */
  lemma LowerCaseIsAccepted()
    ensures FromColumn(Some("emprestado")) == Emprestado
    ensures FromColumn(Some("Disponivel")) == Disponivel
  {
    assert EqualsIgnoreCase(Name(Emprestado), "emprestado");
    assert EqualsIgnoreCase(Name(Disponivel), "Disponivel");
  }

  /** An unknown spelling falls back to DISPONIVEL rather than failing. */
  lemma UnknownFallsBack()
    ensures FromColumn(Some("RESERVADO")) == Disponivel
    ensures FromColumn(Some("EMPRESTADOS")) == Disponivel
  {
    forall st ensures !EqualsIgnoreCase(Name(st), "RESERVADO") {
      assert FoldChar("RESERVADO"[0]) != Name(st)[0];
    }
  }
}

=== FILE: text.dfy ===
/**
  String matching for the `...ContainingIgnoreCase` derived queries, which
  compare `UPPER(column) LIKE UPPER('%' + q + '%')`. Upper-casing is
  modelled on ASCII letters.
 */
module Text {

  function UpperChar(c: char): char {
    if 'a' <= c <= 'z' then (c as int - 32) as char else c
  }

  function Upper(s: string): (r: string)
    ensures |r| == |s|
  {
    if |s| == 0 then [] else [UpperChar(s[0])] + Upper(s[1..])
  }

  /** `q` appears in `s` starting at position `i`. */
  predicate OccursAt(s: string, q: string, i: int) {
    0 <= i && i + |q| <= |s| && s[i..i + |q|] == q
  }

  /** `s LIKE '%q%'`, with the wildcards of `q` escaped: a plain substring test. */
  predicate Contains(s: string, q: string)
    decreases |s|
  {
    if |q| > |s| then false
    else if s[..|q|] == q then true
    else |s| > 0 && Contains(s[1..], q)
  }

  /** The substring test holds exactly when `q` occurs at some position of `s`. */
  lemma {:induction false} ContainsIffOccurs(s: string, q: string)
    ensures Contains(s, q) <==> exists i :: OccursAt(s, q, i)
    decreases |s|
  {
    if |q| > |s| {
      assert forall i :: !OccursAt(s, q, i);
    } else if s[..|q|] == q {
      assert OccursAt(s, q, 0);
    } else {
      assert !OccursAt(s, q, 0);
      ContainsIffOccurs(s[1..], q);
      forall i | OccursAt(s[1..], q, i) ensures OccursAt(s, q, i + 1) {
        assert s[1..][i..i + |q|] == s[i + 1..i + 1 + |q|];
      }
      forall i | OccursAt(s, q, i) ensures OccursAt(s[1..], q, i - 1) {
        assert s[1..][i - 1..i - 1 + |q|] == s[i..i + |q|];
      }
    }
  }

  /** The case-insensitive substring test of the derived queries. */
  predicate ContainsIgnoringCase(s: string, q: string) {
    Contains(Upper(s), Upper(q))
  }

  /** The empty query matches every string, and every string matches itself. */
  lemma {:induction false} MatchesEmptyAndItself(s: string)
    ensures ContainsIgnoringCase(s, "")
    ensures ContainsIgnoringCase(s, s)
  {
    assert Upper("") == "";
    assert Upper(s)[..0] == "";
    assert Upper(s)[..|Upper(s)|] == Upper(s);
  }
}
